=== FILE: README.md ===
# kubeipfixed allocation engine in Dafny

This project models the allocation core of kubeipfixed, a mutating admission
webhook that gives SR-IOV pods static IP addresses. A pod asks for addresses
through the `k8s.v1.cni.cncf.io/sriovnetworks` annotation. For every
requested address entry, the IP manager renders a CNI configuration and
creates or updates a `NetworkAttachmentDefinition`. It then writes the
`k8s.v1.cni.cncf.io/networks` annotation, and the webhook answers with a
JSON patch carrying that change.

The modules follow the Go packages:

- `Basics`, `Strings`, `Constants`: option and fallible values, Go's
  `strings.IndexAny`, and the IP manager's annotation keys and constants.
- `Kube`: the pod and network attachment definition fields the code uses,
  and the Kubernetes client as a value. The value holds:
  - a map of stored definitions;
  - the set of existing VirtualMachines;
  - a fixed set of calls that fail with a server error;
  - a resource-version counter;
  - the log of calls issued.

  `Get`, `Create` and `Update` behave like the API server. `Create` refuses
  a taken name. `Update` refuses a stale resource version (optimistic
  concurrency).
- `Errors`: how an allocation ends. It returns a Go error or raises a
  runtime panic (`Outcome`).
- `SriovNetworks`: the request types and the template data
  `RenderNetAttDef` builds from one address entry. The data is related to a
  typed `CniConfig` by an encoder and a decoder that invert each other.
- `PodIp`: `parsePodNetworkAnnotation`, `isRelatedToKubevirt`, the
  get/create/update reconcile loop and `AllocatePodIP`. The loop appears
  twice:
  - as a recursive function `Run`, which the lemmas reason about;
  - as the imperative method `Reconcile`, which the Go code is written as.
- `Idempotence`: a repeated allocation for the same pod issues no create, for every pool; for entries with distinct keys it only reads.
- `VmIp`: `VmNamespaced` and its inverse.
- `PodWebhook`: the pod admission handler `Handle` and `patchPodChanges`.

The JSON decoder, the template renderer `RenderDir` and `Scheme.Convert`
are library code that is not part of this model. They are function-valued
parameters (`PodIp.Env`) that may fail.

Where the code and its documented intent differ, the model follows the code:

- The defaulting loop at the end of `parsePodNetworkAnnotation`
  (pkg/ip-manager/pod_ip.go:150-157) ranges over copies of the entries. The
  request therefore comes back exactly as decoded. An entry without a
  namespace keeps "" even in the output annotation, and an empty
  nameservers value stays empty.
- An annotation value with none of `[`, `{`, `"` yields a nil request and
  no error. `AllocatePodIP` then dereferences it (pod_ip.go:53), which the
  model records as `Panic(NilNetworkRequest)`.
- `isNotDryRun` is never read, so a dry run writes to the cluster.
- Every field of `sriovNetwork` is unexported, so Go's JSON decoder never
  fills `ipPool`. With the real decoder every allocation stops at the
  empty-pool check. The model keeps the decoder abstract so that the
  reconcile loop is reachable.
- The output annotation names only `ipPool[0]`, even when the pool has
  more entries.

## Model

| member | source | states |
|---|---|---|
| Strings.IndexAny | pkg/ip-manager/pod_ip.go:141 | the first index holding one of the given characters, -1 exactly when none occurs, and no earlier index holds one |
| SriovNetworks.RenderDataOf | pkg/ip-manager/sriov_networks.go:36-101 | the data map built from an entry is the encoding of the entry's effective configuration: unrecognised or out-of-range optional values count as unset |
| SriovNetworks.RenderedVariables | pkg/ip-manager/sriov_networks.go:36-101 | CniType is "sriov"; name, namespace, resource name, vlan, address, gateway and nameservers are copied; each Configured flag is true iff the value is in range (QoS in 0..7, rate present and >= 0) or recognised ("on"/"off", "enable"/"disable"/"auto"); the guarded variable is present iff its flag is true and then equals the input; an omitted QoS renders as configured 0 |
| SriovNetworks.DecodeEncode | pkg/ip-manager/sriov_networks.go:36-101 | reading the template data back gives the configuration it was built from, for every in-range configuration |
| SriovNetworks.RenderDataDeterminedByEffective | pkg/ip-manager/sriov_networks.go:36-101 | two entries render equal data exactly when they ask for the same effective configuration (equal inputs give equal data, and nothing else is lost) |
| SriovNetworks.RenderNetAttDef | pkg/ip-manager/sriov_networks.go:103-111 | a renderer error comes back unchanged with no object; an empty rendering panics at `objs[0]`; otherwise the first rendered object is returned |
| PodIp.ParsePodNetworkAnnotation | pkg/ip-manager/pod_ip.go:134-160 | "" is an error; a value with none of `[`, `{`, `"` is a nil request without error; a decoder failure is an error; otherwise the decoded request unchanged, with no defaulting |
| PodIp.FirstVmiRef | pkg/ip-manager/pod_ip.go:118-119 | the index of the first VirtualMachineInstance owner, and none exactly when no owner has that kind |
| PodIp.IsRelatedToKubevirt | pkg/ip-manager/pod_ip.go:113-132 | no VMI owner: false and no call; otherwise exactly one VirtualMachine lookup for the first VMI owner in the pod's namespace, and the answer is false exactly when that lookup is NotFound |
| PodIp.Apply | pkg/ip-manager/pod_ip.go:76-101 | a failed get returns the error; NotFound leads to a create; a found definition with equal spec and annotations leads to no write; a differing one leads to an update that carries the found resource version and so fails only on a server error; on success the definition is stored; a failed pass writes nothing; no other key changes |
| PodIp.Step | pkg/ip-manager/pod_ip.go:64-101 | a rendering or conversion failure stops before any call and returns that failure; otherwise the pass is exactly `Apply` of the rendered definition; a failed pass writes nothing; a create is issued only for an absent key |
| PodIp.Run | pkg/ip-manager/pod_ip.go:64-102 | the loop only extends the cluster's history, never removes a definition, and fails on the store only with a server error |
| PodIp.RunFrame | pkg/ip-manager/pod_ip.go:64-102 | keys no entry reconciles are untouched |
| PodIp.RunCompletes | pkg/ip-manager/pod_ip.go:64-102 | after a successful loop every entry renders and some definition is stored under its key; an entry whose key no later entry reconciles is stored with its own spec and annotations |
| PodIp.RunCreatesOnlyAbsent | pkg/ip-manager/pod_ip.go:77-85 | every create the loop issues is for a key the store did not hold when the loop began |
| PodIp.RunSplit | pkg/ip-manager/pod_ip.go:64-102 | once a prefix of the pool has gone through, the loop continues from the state that prefix left |
| PodIp.RunStopsAtFailure | pkg/ip-manager/pod_ip.go:64-102 | the loop stops at the first failing entry: when the first j entries succeed and entry j fails, the whole loop ends with entry j's pass, its cluster and its error or panic |
| PodIp.RunKeepsEarlierWrites | pkg/ip-manager/pod_ip.go:64-102 | no rollback: when entry j fails after the first j succeeded, the loop fails and the stored definitions are exactly those the first j entries left, so each of their keys is still stored |
| PodIp.Reconcile | pkg/ip-manager/pod_ip.go:64-102 | the imperative loop leaves the same cluster and returns the same status as the functional loop |
| PodIp.AllocateNetworks | pkg/ip-manager/pod_ip.go:53-108 | an empty pool changes nothing and issues no call; for a KubeVirt-owned pod the ownership lookup is the only call and nothing else changes; on error the pod is unchanged; the only pod change is the networks annotation set to `[{"name": "<ipPool[0].name>", "namespace":"<ipPool[0].namespace>"}]`, with every other annotation unchanged |
| PodIp.AllocatePodIP | pkg/ip-manager/pod_ip.go:37-111 | without the sriovnetworks key: nil, no call, pod unchanged; an empty value or a decoder failure returns the error with no call; a non-JSON value panics; errors leave the pod unchanged; only the networks annotation can change; the history only grows |
| PodIp.UnownedAllocationIsRun | pkg/ip-manager/pod_ip.go:57-108 | for a pod KubeVirt does not own and a non-empty pool, the allocation returns exactly the reconcile loop's status, its error or panic included, and leaves the cluster the loop left |
| PodIp.AllocationKeepsEarlierWrites | pkg/ip-manager/pod_ip.go:37-108 | when entry j of the requested pool fails after the entries before it went through, `AllocatePodIP` returns entry j's error or panic, leaves the pod unchanged and keeps exactly the definitions the earlier entries stored |
| PodIp.AllocationStoresPool | pkg/ip-manager/pod_ip.go:64-108 | a successful allocation for a pod KubeVirt does not own stores a definition under every entry's key, with the entry's own spec and annotations when no later entry reconciles the same key, and annotates the pod with the first entry |
| PodIp.UnownedAllocationRuns | pkg/ip-manager/pod_ip.go:57-108 | a successful allocation for a pod KubeVirt does not own is a successful reconcile loop started after the ownership lookup, and the pod names the first entry |
| Idempotence.RunOnSettled | pkg/ip-manager/pod_ip.go:90-101 | a loop over definitions already stored with equal spec and annotations succeeds, writes nothing and only reads |
| Idempotence.RunSettles | pkg/ip-manager/pod_ip.go:64-102 | after a successful loop over entries with distinct keys, every definition is stored as rendered |
| Idempotence.StepCreatesOnce | pkg/ip-manager/pod_ip.go:76-85 | one pass creates at most once, and a created key is stored when the pass succeeds |
| Idempotence.RunCreatesEachKeyOnce | pkg/ip-manager/pod_ip.go:64-102 | within one loop no key is created twice |
| Idempotence.AllocationOnSettledStore | pkg/ip-manager/pod_ip.go:53-108 | allocating again for an annotated pod whose definitions are all in place changes neither pod nor store and only reads |
| Idempotence.RetryOfUnownedPod | pkg/ip-manager/pod_ip.go:53-108 | for entries with distinct keys, the second of two allocations for the same pod, on the store the first left, changes nothing and only reads |
| Idempotence.AllocationRetryIsIdempotent | pkg/ip-manager/pod_ip.go:37-111 | rerunning `AllocatePodIP` with the pod it returned, on the store it left, issues no create and no update, leaves the pod and the stored definitions as they were, and succeeds (entries with distinct keys) |
| Idempotence.OwnershipStable | pkg/ip-manager/pod_ip.go:113-132 | ownership depends only on the pod's owners and namespace and on the cluster's VirtualMachines and its failing lookups |
| Idempotence.RunOnPresentKeysNeverCreates | pkg/ip-manager/pod_ip.go:76-85 | a loop started on a store that already holds every key of the pool issues no create, even when two entries share a key |
| Idempotence.RunLeavesKeysPresent | pkg/ip-manager/pod_ip.go:64-102 | after a successful loop every key the pool reconciles is stored |
| Idempotence.NetworksRetryNeverCreates | pkg/ip-manager/pod_ip.go:53-108 | the second of two allocations for the same request, given the pod the first returned and the store it left, issues no create, for every pool |
| Idempotence.RetryNeverCreates | pkg/ip-manager/pod_ip.go:37-111 | rerunning `AllocatePodIP` with the pod a successful allocation returned, on the store it left, issues no create, for every pool |
| Idempotence.ResubmissionOfUnownedPod | pkg/ip-manager/pod_ip.go:53-108 | for entries with distinct keys, allocating again for the pod as first submitted, on the store the first allocation left, returns the same pod, writes nothing and only reads |
| Idempotence.ResubmissionIsIdempotent | pkg/ip-manager/pod_ip.go:37-111 | a redelivered admission request: `AllocatePodIP` for the pod as first submitted, on the store a successful allocation left, succeeds with the same pod, leaves the stored definitions and revision as they were and only reads (entries with distinct keys) |
| Idempotence.NetworksResubmissionNeverCreates | pkg/ip-manager/pod_ip.go:53-108 | allocating again for the pod as first submitted, on the store the first allocation left, issues no create, for every pool |
| Idempotence.ResubmissionNeverCreates | pkg/ip-manager/pod_ip.go:37-111 | `AllocatePodIP` for the pod as first submitted, on the store a successful allocation left, issues no create, for every pool |
| Idempotence.RequestIgnoresNetworks | pkg/ip-manager/pod_ip.go:41-46 | writing the networks annotation does not change the request the pod carries |
| VmIp.VmNamespaced | pkg/ip-manager/vm_ip.go:8-10 | the key is "vm/" followed by the namespace, "/" and the name; its length is 4 + namespace + name |
| VmIp.ParseVmNamespaced | pkg/ip-manager/vm_ip.go:9 | a parsed key formats back to the same string |
| VmIp.ParseVmNamespacedRoundTrip | pkg/ip-manager/vm_ip.go:9 | parsing a key gives back its machine when the namespace holds no '/' |
| VmIp.VmNamespacedInjective | pkg/ip-manager/vm_ip.go:9 | distinct machines whose namespaces hold no '/' get distinct keys |
| VmIp.VmNamespacedCollision | pkg/ip-manager/vm_ip.go:9 | with a '/' in the namespace, two distinct machines share a key |
| PodWebhook.WithAnnotationMap | pkg/webhook/pod/pod.go:60-62 | a nil annotation map becomes an empty one, and every key reads the same as before |
| PodWebhook.PatchPodChanges | pkg/webhook/pod/pod.go:78-104 | always allowed; no patch and no patch type iff the networks annotation reads the same before and after (missing reads as ""); otherwise exactly one JSON patch replacing `/metadata/annotations` with the whole current map |
| PodWebhook.Handle | pkg/webhook/pod/pod.go:51-75 | a decode failure is refused with 400 and no call; an allocation error is refused with 500; when the IP manager panics, the handler panics too and the request gets no answer; otherwise the answer is allowed, carries no patch exactly when the networks annotation of the pod as submitted reads the same as after allocation, and otherwise replaces `/metadata/annotations` with the allocated pod's map |
| PodWebhook.HandlePatchReproducesAllocation | pkg/webhook/pod/pod.go:58-86 | the patch applied to the pod as submitted gives every annotation the value the IP manager left, since the original is kept aside before the empty-map substitution |
| PodWebhook.NilAnnotationsAloneNoPatch | pkg/webhook/pod/pod.go:58-62 | a pod with a nil annotation map is admitted without a patch: the substituted empty map is not a change |
| PodWebhook.HandleIgnoresDryRun | pkg/webhook/pod/pod.go:64-68 | the answer and the cluster's history are the same whatever the dry-run flag says |

## Left out

- `poolMutex` (pkg/ip-manager/pod_ip.go:38-39): concurrency. One `AllocatePodIP` is one atomic step on the cluster value, and nobody else writes between its calls.
- Logging calls: they have no effect on results.
- The transaction timestamp (pkg/webhook/pod/pod.go:65, pkg/ip-manager/transaction.go): a clock read whose value the allocation path never uses.
- The JSON decoder, `RenderDir` with `MakeRenderData` and the template files, and `Scheme.Convert`: library code, kept as function-valued parameters that may fail.
- The Kubernetes client: it is a value with a fixed set of failing calls. A failure stands for every error other than NotFound, AlreadyExists and Conflict. Network timeouts, retries and other writers are not modelled.
- Resource versions are natural numbers from a counter, not opaque strings.
- `reflect.DeepEqual` on the spec is equality of the rendered config string. A nil and an empty annotation map on a stored definition are not distinguished.
- Characters stand for Go runes. Every character searched for is ASCII, so byte and rune positions agree on the questions asked.
- `admission.Errored` keeps the status code and the error value, not the formatted message text.
- pkg/webhook/virtualmachine/virtualmachine.go, pkg/controller/pod/pod_controller.go, pkg/webhook/webhook.go and cmd/manager/main.go are not part of this model. They are transport, registration and bootstrap code that allocates nothing.
- The constants of pkg/ip-manager/ip_manager.go other than the two network annotation keys and the default nameservers (the transaction-timestamp key and the webhook configuration names), and `NewIPManager`: they are never read by the allocation path.
- Idempotence.AllocationRetryIsIdempotent: it assumes the pool's entries render to distinct keys. With two entries for one key holding different content, the second run updates again. Its no-create half holds for every pool and is stated by `Idempotence.RetryNeverCreates`.
- Idempotence.RetryOfUnownedPod: it assumes the pool's entries render to distinct keys, for the same reason.
- Idempotence.ResubmissionIsIdempotent: it assumes the pool's entries render to distinct keys, for the same reason. Its no-create half holds for every pool and is stated by `Idempotence.ResubmissionNeverCreates`.
- Idempotence.ResubmissionOfUnownedPod: it assumes the pool's entries render to distinct keys, for the same reason.

=== FILE: basics.dfy ===
/** Small failure-carrying datatypes shared by every module of the model. */
module Basics {

  /** Go's nil-able `*T` or "comma ok" lookup: either nothing or a value. */
  datatype Option<+T> = None | Some(value: T)

  /** The (value, error) pair returned by a library call the model treats as
      opaque: a JSON decoder, the template renderer, the scheme converter.
      Only the error's message is kept. */
  datatype Fallible<+T> = Success(value: T) | Failure(message: string)
}

=== FILE: constants.dfy ===
/** The annotation keys and fixed values of the IP manager. */
module Constants {

  /** Input annotation carrying the JSON network request. */
  const SriovNetworksAnnotation: string := "k8s.v1.cni.cncf.io/sriovnetworks"

  /** Output annotation naming the network attachment the pod uses. */
  const NetworksAnnotation: string := "k8s.v1.cni.cncf.io/networks"

  /** The nameserver the request parser means to fill in for an entry that
      names none; see `PodIp.ParsePodNetworkAnnotation` for why it never does. */
  const DefaultNameservers: string := "114.114.114.114"

  /** `kubevirt.VirtualMachineInstanceGroupVersionKind.Kind`. */
  const VirtualMachineInstanceKind: string := "VirtualMachineInstance"

  /** Directory of the CNI configuration templates handed to the renderer. */
  const ManifestsPath: string := "./bindata/manifests/cni-config"
}

=== FILE: errors.dfy ===
/** How an allocation ends: the Go error it returns, or the runtime panic it
    would raise. */
module Errors {
  import opened Kube

  datatype Error =
    | EmptySriovAnnotation                     // the annotation is present with an empty value
    | MalformedSriovAnnotation(detail: string) // the JSON decoder refused the value
    | RenderFailed(detail: string)             // the template renderer failed
    | ConvertFailed(detail: string)            // the scheme could not convert the rendered object
    | StoreFailed(cause: StoreError)           // a client call failed with other than NotFound

  datatype PanicReason =
    | NilNetworkRequest  // the nil request of a non-JSON annotation is dereferenced
    | NoRenderedObject   // the renderer succeeded with no object and `objs[0]` is taken

  datatype Outcome<+T> = Ok(value: T) | Err(error: Error) | Panic(reason: PanicReason)
  {
    /** The same error or panic, for a caller that returns another type. */
    function PropagateFailure<U>(): (r: Outcome<U>)
      requires !Ok?
      ensures Err? ==> r == Err(error)
      ensures Panic? ==> r == Panic(reason)
    {
      match this
      case Err(e) => Err(e)
      case Panic(p) => Panic(p)
    }
  }

  /** The result of an operation that returns only a Go `error`. */
  type Status = Outcome<()>

  const Done: Status := Ok(())
}

=== FILE: idempotence.dfy ===
/** What a second `AllocatePodIP` for the same pod finds: every key already
    stored, so it creates nothing, and, when the entries have distinct keys,
    every definition already in place, so it only reads. The reconcile loop
    is a create-or-update, and these lemmas state when that makes it
    idempotent. */
module Idempotence {
  import opened Basics
  import opened Kube
  import opened Errors
  import opened Constants
  import opened SriovNetworks
  import opened PodIp

  /** Entry `si`'s definition is stored with the desired spec and annotations,
      and reading it back does not fail. */
  predicate EntrySettled(env: Env, c: Cluster, si: SriovIpAddress, resourceName: string)
  {
    var n := DesiredNad(env, si, resourceName);
    && n.Ok?
    && KeyOf(n.value) in c.nads
    && SameContent(c.nads[KeyOf(n.value)], n.value)
    && Call(GetNetAttDef, KeyOf(n.value)) !in c.faults
  }

  predicate Settled(env: Env, c: Cluster, pool: seq<SriovIpAddress>, resourceName: string)
  {
    forall i :: 0 <= i < |pool| ==> EntrySettled(env, c, pool[i], resourceName)
  }

  /** No two entries of the pool reconcile the same key. */
  predicate DistinctKeys(env: Env, pool: seq<SriovIpAddress>, resourceName: string)
  {
    forall i, j :: 0 <= i < j < |pool| ==> DesiredKey(env, pool[i], resourceName) != DesiredKey(env, pool[j], resourceName)
  }

  /** A run over a settled store succeeds and issues nothing but reads. */
  lemma {:induction false} RunOnSettled(env: Env, c: Cluster, pool: seq<SriovIpAddress>, resourceName: string)
    requires Settled(env, c, pool, resourceName)
    ensures var r := Run(env, c, pool, resourceName);
            && r.result == Done
            && r.cluster.nads == c.nads && r.cluster.revision == c.revision
            && forall call :: call in CallsSince(c, r.cluster) ==> call.verb == GetNetAttDef
    decreases |pool|
  {
    if |pool| > 0 {
      assert EntrySettled(env, c, pool[0], resourceName);
      var n := DesiredNad(env, pool[0], resourceName).value;
      var first := Step(env, c, pool[0], resourceName);
      assert first == Reply(Issue(c, Call(GetNetAttDef, KeyOf(n))), Done);
      assert Settled(env, first.cluster, pool[1..], resourceName) by {
        forall i | 0 <= i < |pool| - 1 ensures EntrySettled(env, first.cluster, pool[1..][i], resourceName) {
          assert pool[1..][i] == pool[i + 1];
          assert EntrySettled(env, c, pool[i + 1], resourceName);
        }
      }
      RunOnSettled(env, first.cluster, pool[1..], resourceName);
      var rest := Run(env, first.cluster, pool[1..], resourceName);
      assert CallsSince(c, rest.cluster) == CallsSince(c, first.cluster) + CallsSince(first.cluster, rest.cluster);
    }
  }

  /** A successful run over a pool with distinct keys leaves the store
      settled for that pool. */
  lemma {:induction false} RunSettles(env: Env, c: Cluster, pool: seq<SriovIpAddress>, resourceName: string)
    requires DistinctKeys(env, pool, resourceName)
    requires Run(env, c, pool, resourceName).result.Ok?
    ensures Settled(env, Run(env, c, pool, resourceName).cluster, pool, resourceName)
    decreases |pool|
  {
    if |pool| > 0 {
      var first := Step(env, c, pool[0], resourceName);
      var rest := Run(env, first.cluster, pool[1..], resourceName);
      assert Run(env, c, pool, resourceName) == rest;
      assert DistinctKeys(env, pool[1..], resourceName) by {
        forall i, j | 0 <= i < j < |pool| - 1
          ensures DesiredKey(env, pool[1..][i], resourceName) != DesiredKey(env, pool[1..][j], resourceName)
        {
          assert pool[1..][i] == pool[i + 1] && pool[1..][j] == pool[j + 1];
        }
      }
      RunSettles(env, first.cluster, pool[1..], resourceName);
      var k := KeyOf(DesiredNad(env, pool[0], resourceName).value);
      assert EntrySettled(env, first.cluster, pool[0], resourceName);
      assert Untouched(env, pool[1..], resourceName, k) by {
        forall i | 0 <= i < |pool| - 1 ensures DesiredKey(env, pool[1..][i], resourceName) != Some(k) {
          assert pool[1..][i] == pool[i + 1];
          assert DesiredKey(env, pool[0], resourceName) == Some(k);
        }
      }
      RunFrame(env, first.cluster, pool[1..], resourceName, k);
      assert EntrySettled(env, rest.cluster, pool[0], resourceName);
      forall i | 0 <= i < |pool| ensures EntrySettled(env, rest.cluster, pool[i], resourceName) {
        if i > 0 {
          assert pool[1..][i - 1] == pool[i];
        }
      }
    }
  }

  /** No two creates in `calls` are for the same key. */
  predicate CreatesDistinct(calls: seq<Call>)
  {
    forall i, j :: 0 <= i < j < |calls| && calls[i].verb == CreateNetAttDef && calls[j].verb == CreateNetAttDef ==>
      calls[i].key != calls[j].key
  }

  /** Every create in `calls` is for a key stored in `nads`. */
  predicate CreatesWithin(calls: seq<Call>, nads: map<Key, NetAttDef>)
  {
    forall call :: call in calls && call.verb == CreateNetAttDef ==> call.key in nads
  }

  lemma CreatesDistinctAppend(head: seq<Call>, tail: seq<Call>, nads: map<Key, NetAttDef>)
    requires CreatesDistinct(head) && CreatesDistinct(tail)
    requires CreatesWithin(head, nads)
    requires forall call :: call in tail && call.verb == CreateNetAttDef ==> call.key !in nads
    ensures CreatesDistinct(head + tail)
  {
    var calls := head + tail;
    forall i, j | 0 <= i < j < |calls| && calls[i].verb == CreateNetAttDef && calls[j].verb == CreateNetAttDef
      ensures calls[i].key != calls[j].key
    {
      if j < |head| {
        assert calls[i] == head[i] && calls[j] == head[j];
      } else if i < |head| {
        assert calls[i] == head[i] && calls[i] in head;
        assert calls[j] == tail[j - |head|] && calls[j] in tail;
      } else {
        assert calls[i] == tail[i - |head|] && calls[j] == tail[j - |head|];
      }
    }
  }

  /** One pass of the loop creates at most once, and on success the key it
      created is stored. */
  lemma StepCreatesOnce(env: Env, c: Cluster, si: SriovIpAddress, resourceName: string)
    ensures var r := Step(env, c, si, resourceName);
            && CreatesDistinct(CallsSince(c, r.cluster))
            && (r.result.Ok? ==> CreatesWithin(CallsSince(c, r.cluster), r.cluster.nads))
  {
    var r := Step(env, c, si, resourceName);
    if DesiredNad(env, si, resourceName).Ok? {
      var n := DesiredNad(env, si, resourceName).value;
      assert r == Apply(c, n);
      var calls := CallsSince(c, r.cluster);
      assert |calls| <= 2 && calls[0].verb == GetNetAttDef;
    }
  }

  /** Within one run, no key is created twice: a created key is present
      afterwards, and later entries only create keys that are absent. */
  lemma {:induction false} RunCreatesEachKeyOnce(env: Env, c: Cluster, pool: seq<SriovIpAddress>, resourceName: string)
    ensures CreatesDistinct(CallsSince(c, Run(env, c, pool, resourceName).cluster))
    decreases |pool|
  {
    if |pool| > 0 {
      var first := Step(env, c, pool[0], resourceName);
      StepCreatesOnce(env, c, pool[0], resourceName);
      if first.result.Ok? {
        var rest := Run(env, first.cluster, pool[1..], resourceName);
        RunCreatesEachKeyOnce(env, first.cluster, pool[1..], resourceName);
        RunCreatesOnlyAbsent(env, first.cluster, pool[1..], resourceName);
        CallsSinceSplit(c, first.cluster, rest.cluster);
        CreatesDistinctAppend(CallsSince(c, first.cluster), CallsSince(first.cluster, rest.cluster), first.cluster.nads);
        assert Run(env, c, pool, resourceName) == rest;
      } else {
        assert Run(env, c, pool, resourceName) == first;
      }
    }
  }

  /** Every key the pool reconciles is stored in `nads`. */
  predicate KeysPresent(env: Env, nads: map<Key, NetAttDef>, pool: seq<SriovIpAddress>, resourceName: string)
  {
    forall i :: 0 <= i < |pool| && DesiredKey(env, pool[i], resourceName).Some? ==>
      DesiredKey(env, pool[i], resourceName).value in nads
  }

  /** A run from a store that already holds every key of the pool issues no
      create, whether or not two entries share a key. */
  lemma {:induction false} RunOnPresentKeysNeverCreates(env: Env, c: Cluster, pool: seq<SriovIpAddress>, resourceName: string)
    requires KeysPresent(env, c.nads, pool, resourceName)
    ensures forall call :: call in CallsSince(c, Run(env, c, pool, resourceName).cluster) ==> call.verb != CreateNetAttDef
    decreases |pool|
  {
    if |pool| > 0 {
      var first := Step(env, c, pool[0], resourceName);
      assert DesiredKey(env, pool[0], resourceName).Some? ==> DesiredKey(env, pool[0], resourceName).value in c.nads;
      assert forall call :: call in CallsSince(c, first.cluster) ==> call.verb != CreateNetAttDef;
      if first.result.Ok? {
        var rest := Run(env, first.cluster, pool[1..], resourceName);
        assert Run(env, c, pool, resourceName) == rest;
        assert KeysPresent(env, first.cluster.nads, pool[1..], resourceName) by {
          forall i | 0 <= i < |pool| - 1 && DesiredKey(env, pool[1..][i], resourceName).Some?
            ensures DesiredKey(env, pool[1..][i], resourceName).value in first.cluster.nads
          {
            assert pool[1..][i] == pool[i + 1];
          }
        }
        RunOnPresentKeysNeverCreates(env, first.cluster, pool[1..], resourceName);
        CallsSinceSplit(c, first.cluster, rest.cluster);
      } else {
        assert Run(env, c, pool, resourceName) == first;
      }
    }
  }

  /** After a successful run every key of the pool is stored. */
  lemma RunLeavesKeysPresent(env: Env, c: Cluster, pool: seq<SriovIpAddress>, resourceName: string)
    requires Run(env, c, pool, resourceName).result.Ok?
    ensures KeysPresent(env, Run(env, c, pool, resourceName).cluster.nads, pool, resourceName)
  {
    forall i | 0 <= i < |pool| && DesiredKey(env, pool[i], resourceName).Some?
      ensures DesiredKey(env, pool[i], resourceName).value in Run(env, c, pool, resourceName).cluster.nads
    {
      RunCompletes(env, c, pool, resourceName, i);
    }
  }

  /** Ownership depends only on the pod's owners and namespace and on the
      cluster's VirtualMachines and failing calls. */
  lemma OwnershipStable(pod: Pod, pod2: Pod, c: Cluster, c2: Cluster)
    requires pod2.ownerRefs == pod.ownerRefs && pod2.namespace == pod.namespace
    requires c2.vms == c.vms && c2.faults == c.faults
    ensures IsRelatedToKubevirt(pod2, c2).result == IsRelatedToKubevirt(pod, c).result
  {
  }

  /** Settledness reads only the stored definitions and the failing calls. */
  lemma SettledDependsOnStore(env: Env, c: Cluster, c2: Cluster, pool: seq<SriovIpAddress>, resourceName: string)
    requires Settled(env, c, pool, resourceName)
    requires c2.nads == c.nads && c2.faults == c.faults
    ensures Settled(env, c2, pool, resourceName)
  {
    forall i | 0 <= i < |pool| ensures EntrySettled(env, c2, pool[i], resourceName) {
      assert EntrySettled(env, c, pool[i], resourceName);
    }
  }

  /** Writing the networks annotation does not change the request a pod
      carries. */
  lemma RequestIgnoresNetworks(env: Env, pod: Pod, value: string)
    requires pod.annotations.Some?
    ensures RequestOf(env, pod.(annotations := Some(pod.annotations.value[NetworksAnnotation := value]))) == RequestOf(env, pod)
  {
    assert SriovNetworksAnnotation != NetworksAnnotation;
  }

  /** Allocating for a pod KubeVirt does not own, whose definitions are all
      in place and whose networks annotation already names the first entry,
      changes nothing and only reads. */
  lemma AllocationOnSettledStore(env: Env, pod: Pod, c: Cluster, networks: SriovNetwork)
    requires HasAnnotation(pod, NetworksAnnotation) && |networks.ipPool| > 0
    requires pod.annotations.value[NetworksAnnotation] == NetworksJson(networks.ipPool[0])
    requires !IsRelatedToKubevirt(pod, c).result
    requires Settled(env, c, networks.ipPool, networks.resourceName)
    ensures var r := AllocateNetworks(env, pod, c, networks);
            && r.status == Done
            && r.pod == pod
            && r.cluster.nads == c.nads
            && r.cluster.revision == c.revision
            && forall call :: call in CallsSince(c, r.cluster) ==>
                 call.verb == GetVirtualMachine || call.verb == GetNetAttDef
  {
    var pool, resourceName := networks.ipPool, networks.resourceName;
    var owned := IsRelatedToKubevirt(pod, c);
    SettledDependsOnStore(env, c, owned.cluster, pool, resourceName);
    RunOnSettled(env, owned.cluster, pool, resourceName);
    var run := Run(env, owned.cluster, pool, resourceName);
    var r := AllocateNetworks(env, pod, c, networks);
    assert pod.annotations.value[NetworksAnnotation := NetworksJson(pool[0])] == pod.annotations.value;
    assert r == Allocation(pod, run.cluster, Done);
    var lookups := CallsSince(c, owned.cluster);
    assert forall call :: call in lookups ==> call.verb == GetVirtualMachine;
    CallsSinceSplit(c, owned.cluster, r.cluster);
    forall call | call in CallsSince(c, r.cluster)
      ensures call.verb == GetVirtualMachine || call.verb == GetNetAttDef
    {
      assert call in lookups || call in CallsSince(owned.cluster, run.cluster);
    }
  }

  /** The second allocation of a retry for a pod KubeVirt does not own,
      on the store the first one left. */
  lemma RetryOfUnownedPod(env: Env, pod: Pod, c: Cluster, networks: SriovNetwork)
    requires pod.annotations.Some? && |networks.ipPool| > 0
    requires DistinctKeys(env, networks.ipPool, networks.resourceName)
    requires !IsRelatedToKubevirt(pod, c).result
    requires AllocateNetworks(env, pod, c, networks).status.Ok?
    ensures var r1 := AllocateNetworks(env, pod, c, networks);
            var r2 := AllocateNetworks(env, r1.pod, r1.cluster, networks);
            && r2.status == Done
            && r2.pod == r1.pod
            && r2.cluster.nads == r1.cluster.nads
            && r2.cluster.revision == r1.cluster.revision
            && forall call :: call in CallsSince(r1.cluster, r2.cluster) ==>
                 call.verb == GetVirtualMachine || call.verb == GetNetAttDef
  {
    var owned := IsRelatedToKubevirt(pod, c);
    var r1 := AllocateNetworks(env, pod, c, networks);
    assert r1.cluster == Run(env, owned.cluster, networks.ipPool, networks.resourceName).cluster;
    RunSettles(env, owned.cluster, networks.ipPool, networks.resourceName);
    OwnershipStable(pod, r1.pod, c, r1.cluster);
    AllocationOnSettledStore(env, r1.pod, r1.cluster, networks);
  }

  /** Retrying `AllocatePodIP` for a pod that was just allocated, on the
      store that allocation left, changes neither the pod nor the store:
      it issues only reads and no create or update. */
  lemma AllocationRetryIsIdempotent(env: Env, pod: Pod, c: Cluster, dryRun1: bool, dryRun2: bool)
    requires AllocatePodIP(env, pod, c, dryRun1).status.Ok?
    requires RequestOf(env, pod).Some? ==>
               DistinctKeys(env, RequestOf(env, pod).value.ipPool, RequestOf(env, pod).value.resourceName)
    ensures var r1 := AllocatePodIP(env, pod, c, dryRun1);
            var r2 := AllocatePodIP(env, r1.pod, r1.cluster, dryRun2);
            && r2.status == Done
            && r2.pod == r1.pod
            && r2.cluster.nads == r1.cluster.nads
            && r2.cluster.revision == r1.cluster.revision
            && forall call :: call in CallsSince(r1.cluster, r2.cluster) ==>
                 call.verb == GetVirtualMachine || call.verb == GetNetAttDef
  {
    var r1 := AllocatePodIP(env, pod, c, dryRun1);
    if RequestOf(env, pod).Some? {
      var networks := RequestOf(env, pod).value;
      if r1.pod != pod {
        RequestIgnoresNetworks(env, pod, NetworksJson(networks.ipPool[0]));
      }
      assert RequestOf(env, r1.pod) == Some(networks);
      if |networks.ipPool| > 0 && !IsRelatedToKubevirt(pod, c).result {
        RetryOfUnownedPod(env, pod, c, networks);
      } else if |networks.ipPool| > 0 {
        OwnershipStable(pod, pod, c, r1.cluster);
      }
    } else {
      assert r1 == Allocation(pod, c, Done);
    }
  }

  /** The second of two allocations for the same request, on the store the
      first left, issues no create: an owned pod only looks up its owner,
      and otherwise every key the loop reconciles is already stored. */
  lemma NetworksRetryNeverCreates(env: Env, pod: Pod, c: Cluster, networks: SriovNetwork)
    requires pod.annotations.Some?
    requires AllocateNetworks(env, pod, c, networks).status.Ok?
    ensures var r1 := AllocateNetworks(env, pod, c, networks);
            var r2 := AllocateNetworks(env, r1.pod, r1.cluster, networks);
            forall call :: call in CallsSince(r1.cluster, r2.cluster) ==> call.verb != CreateNetAttDef
  {
    var pool, resourceName := networks.ipPool, networks.resourceName;
    var r1 := AllocateNetworks(env, pod, c, networks);
    var r2 := AllocateNetworks(env, r1.pod, r1.cluster, networks);
    if |pool| > 0 {
      OwnershipStable(pod, r1.pod, c, r1.cluster);
      var owned2 := IsRelatedToKubevirt(r1.pod, r1.cluster);
      if !owned2.result {
        var owned1 := IsRelatedToKubevirt(pod, c);
        assert r1.cluster == Run(env, owned1.cluster, pool, resourceName).cluster;
        RunLeavesKeysPresent(env, owned1.cluster, pool, resourceName);
        RunOnPresentKeysNeverCreates(env, owned2.cluster, pool, resourceName);
        var run2 := Run(env, owned2.cluster, pool, resourceName);
        assert r2.cluster == run2.cluster;
        CallsSinceSplit(r1.cluster, owned2.cluster, run2.cluster);
        forall call | call in CallsSince(r1.cluster, r2.cluster) ensures call.verb != CreateNetAttDef {
          assert call in CallsSince(r1.cluster, owned2.cluster) || call in CallsSince(owned2.cluster, run2.cluster);
        }
      }
    }
  }

  /** Retrying `AllocatePodIP` on the store a successful allocation left
      issues no create, for every pool: every key it reconciles is already
      stored. Duplicate keys can make the retry update, never create. */
  lemma RetryNeverCreates(env: Env, pod: Pod, c: Cluster, dryRun1: bool, dryRun2: bool)
    requires AllocatePodIP(env, pod, c, dryRun1).status.Ok?
    ensures var r1 := AllocatePodIP(env, pod, c, dryRun1);
            var r2 := AllocatePodIP(env, r1.pod, r1.cluster, dryRun2);
            forall call :: call in CallsSince(r1.cluster, r2.cluster) ==> call.verb != CreateNetAttDef
  {
    var r1 := AllocatePodIP(env, pod, c, dryRun1);
    if RequestOf(env, pod).Some? {
      var networks := RequestOf(env, pod).value;
      if r1.pod != pod {
        RequestIgnoresNetworks(env, pod, NetworksJson(networks.ipPool[0]));
      }
      assert RequestOf(env, r1.pod) == Some(networks);
      NetworksRetryNeverCreates(env, pod, c, networks);
    } else {
      assert r1 == Allocation(pod, c, Done);
    }
  }

  // When the platform delivers the same admission request again, the IP
  // manager sees the pod as first submitted, not the patched one, on the
  // store the first allocation left.

  /** Resubmitting the same unowned pod with entries of distinct keys
      returns the pod the first allocation returned, writes nothing and
      only reads. */
  lemma ResubmissionOfUnownedPod(env: Env, pod: Pod, c: Cluster, networks: SriovNetwork)
    requires pod.annotations.Some? && |networks.ipPool| > 0
    requires DistinctKeys(env, networks.ipPool, networks.resourceName)
    requires !IsRelatedToKubevirt(pod, c).result
    requires AllocateNetworks(env, pod, c, networks).status.Ok?
    ensures var r1 := AllocateNetworks(env, pod, c, networks);
            var r2 := AllocateNetworks(env, pod, r1.cluster, networks);
            && r2.status == Done
            && r2.pod == r1.pod
            && r2.cluster.nads == r1.cluster.nads
            && r2.cluster.revision == r1.cluster.revision
            && forall call :: call in CallsSince(r1.cluster, r2.cluster) ==>
                 call.verb == GetVirtualMachine || call.verb == GetNetAttDef
  {
    var pool, resourceName := networks.ipPool, networks.resourceName;
    var owned1 := IsRelatedToKubevirt(pod, c);
    var r1 := AllocateNetworks(env, pod, c, networks);
    assert r1.cluster == Run(env, owned1.cluster, pool, resourceName).cluster;
    RunSettles(env, owned1.cluster, pool, resourceName);
    OwnershipStable(pod, pod, c, r1.cluster);
    var owned2 := IsRelatedToKubevirt(pod, r1.cluster);
    SettledDependsOnStore(env, r1.cluster, owned2.cluster, pool, resourceName);
    RunOnSettled(env, owned2.cluster, pool, resourceName);
    var run2 := Run(env, owned2.cluster, pool, resourceName);
    var r2 := AllocateNetworks(env, pod, r1.cluster, networks);
    assert r2.cluster == run2.cluster;
    CallsSinceSplit(r1.cluster, owned2.cluster, run2.cluster);
    forall call | call in CallsSince(r1.cluster, r2.cluster)
      ensures call.verb == GetVirtualMachine || call.verb == GetNetAttDef
    {
      assert call in CallsSince(r1.cluster, owned2.cluster) || call in CallsSince(owned2.cluster, run2.cluster);
    }
  }

  /** Resubmitting the pod as first submitted, on the store a successful
      `AllocatePodIP` left, gives the same pod back, changes no stored
      definition and only reads, for entries with distinct keys. */
  lemma ResubmissionIsIdempotent(env: Env, pod: Pod, c: Cluster, dryRun1: bool, dryRun2: bool)
    requires AllocatePodIP(env, pod, c, dryRun1).status.Ok?
    requires RequestOf(env, pod).Some? ==>
               DistinctKeys(env, RequestOf(env, pod).value.ipPool, RequestOf(env, pod).value.resourceName)
    ensures var r1 := AllocatePodIP(env, pod, c, dryRun1);
            var r2 := AllocatePodIP(env, pod, r1.cluster, dryRun2);
            && r2.status == Done
            && r2.pod == r1.pod
            && r2.cluster.nads == r1.cluster.nads
            && r2.cluster.revision == r1.cluster.revision
            && forall call :: call in CallsSince(r1.cluster, r2.cluster) ==>
                 call.verb == GetVirtualMachine || call.verb == GetNetAttDef
  {
    var r1 := AllocatePodIP(env, pod, c, dryRun1);
    if RequestOf(env, pod).Some? {
      var networks := RequestOf(env, pod).value;
      if |networks.ipPool| > 0 {
        OwnershipStable(pod, pod, c, r1.cluster);
        if !IsRelatedToKubevirt(pod, c).result {
          ResubmissionOfUnownedPod(env, pod, c, networks);
        }
      }
    } else {
      assert r1 == Allocation(pod, c, Done);
    }
  }

  /** Resubmitting the same pod on the store the first allocation left
      issues no create, for every pool. */
  lemma NetworksResubmissionNeverCreates(env: Env, pod: Pod, c: Cluster, networks: SriovNetwork)
    requires pod.annotations.Some?
    requires AllocateNetworks(env, pod, c, networks).status.Ok?
    ensures var r1 := AllocateNetworks(env, pod, c, networks);
            var r2 := AllocateNetworks(env, pod, r1.cluster, networks);
            forall call :: call in CallsSince(r1.cluster, r2.cluster) ==> call.verb != CreateNetAttDef
  {
    var pool, resourceName := networks.ipPool, networks.resourceName;
    var r1 := AllocateNetworks(env, pod, c, networks);
    var r2 := AllocateNetworks(env, pod, r1.cluster, networks);
    if |pool| > 0 {
      OwnershipStable(pod, pod, c, r1.cluster);
      var owned2 := IsRelatedToKubevirt(pod, r1.cluster);
      if !owned2.result {
        var owned1 := IsRelatedToKubevirt(pod, c);
        assert r1.cluster == Run(env, owned1.cluster, pool, resourceName).cluster;
        RunLeavesKeysPresent(env, owned1.cluster, pool, resourceName);
        RunOnPresentKeysNeverCreates(env, owned2.cluster, pool, resourceName);
        var run2 := Run(env, owned2.cluster, pool, resourceName);
        assert r2.cluster == run2.cluster;
        CallsSinceSplit(r1.cluster, owned2.cluster, run2.cluster);
        forall call | call in CallsSince(r1.cluster, r2.cluster) ensures call.verb != CreateNetAttDef {
          assert call in CallsSince(r1.cluster, owned2.cluster) || call in CallsSince(owned2.cluster, run2.cluster);
        }
      }
    }
  }

  /** Resubmitting the pod as first submitted, on the store a successful
      `AllocatePodIP` left, issues no create, for every pool. */
  lemma ResubmissionNeverCreates(env: Env, pod: Pod, c: Cluster, dryRun1: bool, dryRun2: bool)
    requires AllocatePodIP(env, pod, c, dryRun1).status.Ok?
    ensures var r1 := AllocatePodIP(env, pod, c, dryRun1);
            var r2 := AllocatePodIP(env, pod, r1.cluster, dryRun2);
            forall call :: call in CallsSince(r1.cluster, r2.cluster) ==> call.verb != CreateNetAttDef
  {
    var r1 := AllocatePodIP(env, pod, c, dryRun1);
    if RequestOf(env, pod).Some? {
      NetworksResubmissionNeverCreates(env, pod, c, RequestOf(env, pod).value);
    } else {
      assert r1 == Allocation(pod, c, Done);
    }
  }
}

=== FILE: kube.dfy ===
/** The Kubernetes objects the webhook touches and the API client it talks
    to. The client is modelled as a value: the stored network attachment
    definitions, the set of existing VirtualMachines, a fixed set of calls
    that fail with a server error (standing for any error other than
    NotFound), a resource-version counter and the log of calls issued. */
module Kube {
  import opened Basics

  type Annotations = map<string, string>

  /** `types.NamespacedName` / `client.ObjectKey`. */
  datatype Key = Key(name: string, namespace: string)

  datatype OwnerRef = OwnerRef(kind: string, name: string)

  /** The part of a `corev1.Pod` the webhook reads or writes. A nil
      annotation map is `None`. */
  datatype Pod = Pod(name: string, namespace: string, annotations: Option<Annotations>, ownerRefs: seq<OwnerRef>)

  /** The `ok` of Go's `v, ok := pod.Annotations[key]`. */
  predicate HasAnnotation(pod: Pod, key: string)
  {
    pod.annotations.Some? && key in pod.annotations.value
  }

  /** Go's `pod.GetAnnotations()[key]`: a nil map or a missing key reads as "". */
  function AnnotationOf(pod: Pod, key: string): string
  {
    if HasAnnotation(pod, key) then pod.annotations.value[key] else ""
  }

  /** The fields of a `NetworkAttachmentDefinition` the reconcile loop
      compares or sets; `config` is its spec. A resource version of 0 stands
      for "not set". */
  datatype NetAttDef = NetAttDef(name: string, namespace: string, annotations: Annotations, config: string, resourceVersion: nat)

  function KeyOf(n: NetAttDef): Key
  {
    Key(n.name, n.namespace)
  }

  /** Two definitions carry the same desired state: the spec and the
      annotations, the two things the reconcile loop compares. */
  predicate SameContent(a: NetAttDef, b: NetAttDef)
  {
    a.config == b.config && a.annotations == b.annotations
  }

  datatype Verb = GetVirtualMachine | GetNetAttDef | CreateNetAttDef | UpdateNetAttDef

  datatype Call = Call(verb: Verb, key: Key)

  /** Errors the API server answers with. `Unavailable` stands for every
      error that is not one of the three named ones. */
  datatype StoreError = Unavailable(call: Call) | NotFound(key: Key) | AlreadyExists(key: Key) | Conflict(key: Key)

  datatype Cluster = Cluster(nads: map<Key, NetAttDef>, vms: set<Key>, faults: set<Call>, revision: nat, log: seq<Call>)

  /** The cluster after a client call, and what the call returned. */
  datatype Reply<+T> = Reply(cluster: Cluster, result: T)

  datatype Lookup<+T> = Found(item: T) | Absent | LookupFailed(error: StoreError)

  /** `c2` is a later state of `c`: the VirtualMachines and the failing calls
      are fixed, the call log only grows and the revision never goes back. */
  predicate Extends(c: Cluster, c2: Cluster)
  {
    c2.vms == c.vms && c2.faults == c.faults && c.log <= c2.log && c.revision <= c2.revision
  }

  /** The calls issued between `c` and its later state `c2`. */
  function CallsSince(c: Cluster, c2: Cluster): seq<Call>
    requires c.log <= c2.log
  {
    c2.log[|c.log|..]
  }

  /** The calls between three successive states are those of the two steps. */
  lemma CallsSinceSplit(c1: Cluster, c2: Cluster, c3: Cluster)
    requires c1.log <= c2.log <= c3.log
    ensures CallsSince(c1, c3) == CallsSince(c1, c2) + CallsSince(c2, c3)
  {
  }

  /** Maps `m1` and `m2` agree at key `k`. */
  predicate AgreeAt(m1: map<Key, NetAttDef>, m2: map<Key, NetAttDef>, k: Key)
  {
    (k in m1 <==> k in m2) && (k in m1 ==> m1[k] == m2[k])
  }

  function Issue(c: Cluster, call: Call): (c2: Cluster)
    ensures Extends(c, c2) && c2.nads == c.nads && c2.revision == c.revision
    ensures CallsSince(c, c2) == [call]
  {
    c.(log := c.log + [call])
  }

  /** `client.Get` of the VirtualMachine named `k`. */
  function GetVm(c: Cluster, k: Key): (r: Reply<Lookup<Key>>)
    ensures Extends(c, r.cluster) && r.cluster.nads == c.nads && r.cluster.revision == c.revision
    ensures CallsSince(c, r.cluster) == [Call(GetVirtualMachine, k)]
    ensures r.result.Absent? <==> Call(GetVirtualMachine, k) !in c.faults && k !in c.vms
    ensures r.result.Found? <==> Call(GetVirtualMachine, k) !in c.faults && k in c.vms
  {
    var call := Call(GetVirtualMachine, k);
    var c2 := Issue(c, call);
    if call in c.faults then Reply(c2, LookupFailed(Unavailable(call)))
    else if k in c.vms then Reply(c2, Found(k))
    else Reply(c2, Absent)
  }

  /** `client.Get` of the network attachment definition named `k`. */
  function GetNad(c: Cluster, k: Key): (r: Reply<Lookup<NetAttDef>>)
    ensures Extends(c, r.cluster) && r.cluster.nads == c.nads && r.cluster.revision == c.revision
    ensures CallsSince(c, r.cluster) == [Call(GetNetAttDef, k)]
    ensures r.result.Found? <==> Call(GetNetAttDef, k) !in c.faults && k in c.nads
    ensures r.result.Found? ==> r.result.item == c.nads[k]
    ensures r.result.Absent? <==> Call(GetNetAttDef, k) !in c.faults && k !in c.nads
    ensures r.result.LookupFailed? ==> r.result.error == Unavailable(Call(GetNetAttDef, k))
  {
    var call := Call(GetNetAttDef, k);
    var c2 := Issue(c, call);
    if call in c.faults then Reply(c2, LookupFailed(Unavailable(call)))
    else if k in c.nads then Reply(c2, Found(c.nads[k]))
    else Reply(c2, Absent)
  }

  /** `c2` holds `n` under its key with a fresh resource version, and agrees
      with `c` everywhere else. */
  ghost predicate StoredAt(c: Cluster, c2: Cluster, n: NetAttDef)
  {
    && KeyOf(n) in c2.nads
    && SameContent(c2.nads[KeyOf(n)], n)
    && c2.nads[KeyOf(n)].resourceVersion == c2.revision > c.revision
    && c2.nads.Keys == c.nads.Keys + {KeyOf(n)}
    && forall k :: k != KeyOf(n) ==> AgreeAt(c.nads, c2.nads, k)
  }

  /** `client.Create`: refused when the name is taken. */
  function Create(c: Cluster, n: NetAttDef): (r: Reply<Option<StoreError>>)
    ensures Extends(c, r.cluster)
    ensures CallsSince(c, r.cluster) == [Call(CreateNetAttDef, KeyOf(n))]
    ensures r.result.None? <==> Call(CreateNetAttDef, KeyOf(n)) !in c.faults && KeyOf(n) !in c.nads
    ensures r.result.None? ==> StoredAt(c, r.cluster, n)
    ensures r.result.Some? ==> r.cluster.nads == c.nads
  {
    var k := KeyOf(n);
    var call := Call(CreateNetAttDef, k);
    var c2 := Issue(c, call);
    if call in c.faults then Reply(c2, Some(Unavailable(call)))
    else if k in c.nads then Reply(c2, Some(AlreadyExists(k)))
    else
      var rev := c.revision + 1;
      Reply(c2.(nads := c.nads[k := n.(resourceVersion := rev)], revision := rev), None)
  }

  /** `client.Update`: optimistic concurrency, so refused unless `n` carries
      the stored resource version. */
  function Update(c: Cluster, n: NetAttDef): (r: Reply<Option<StoreError>>)
    ensures Extends(c, r.cluster)
    ensures CallsSince(c, r.cluster) == [Call(UpdateNetAttDef, KeyOf(n))]
    ensures r.result.None? <==>
              && Call(UpdateNetAttDef, KeyOf(n)) !in c.faults
              && KeyOf(n) in c.nads
              && c.nads[KeyOf(n)].resourceVersion == n.resourceVersion
    ensures r.result.None? ==> StoredAt(c, r.cluster, n)
    ensures r.result.Some? ==> r.cluster.nads == c.nads
  {
    var k := KeyOf(n);
    var call := Call(UpdateNetAttDef, k);
    var c2 := Issue(c, call);
    if call in c.faults then Reply(c2, Some(Unavailable(call)))
    else if k !in c.nads then Reply(c2, Some(NotFound(k)))
    else if c.nads[k].resourceVersion != n.resourceVersion then Reply(c2, Some(Conflict(k)))
    else
      var rev := c.revision + 1;
      Reply(c2.(nads := c.nads[k := n.(resourceVersion := rev)], revision := rev), None)
  }
}

=== FILE: pod_ip.dfy ===
/** `AllocatePodIP` and the three steps it is made of: parsing the request
    annotation, deciding whether KubeVirt owns the pod, and reconciling one
    network attachment definition per requested address. The whole call runs
    under the IP manager's mutex, so it is modelled as one atomic step from a
    cluster state to the next. */
module PodIp {
  import opened Basics
  import opened Strings
  import opened Kube
  import opened Errors
  import opened Constants
  import opened SriovNetworks

  /** The library calls the IP manager makes and the model keeps opaque. */
  datatype Env = Env(
    // `json.Unmarshal` into a `*sriovNetwork`. Go's decoder fills only
    // exported fields and every field of `sriovNetwork` is unexported, so
    // the real decoder always yields an empty pool; the model leaves the
    // decoder open so that the reconcile loop is exercised.
    decode: string -> Fallible<SriovNetwork>,
    // `RenderDir` over the CNI configuration templates.
    renderDir: (string, RenderData) -> Fallible<seq<Manifest>>,
    // `Scheme.Convert` from the rendered object to a typed definition.
    convert: Manifest -> Fallible<NetAttDef>)

  /** The characters whose presence makes the annotation "look like JSON". */
  const JsonMarkers: set<char> := {'[', '{', '"'}

  /** `parsePodNetworkAnnotation`. An empty value is an error; a value with
      none of `[`, `{`, `"` anywhere is a nil request and no error; anything
      else goes to the decoder. The loop that follows the decoding ranges
      over copies of the entries, so its namespace and nameserver defaults
      are lost and the decoded request comes back unchanged. */
  function ParsePodNetworkAnnotation(decode: string -> Fallible<SriovNetwork>, podNetworks: string,
                                     defaultNamespace: string): (r: Outcome<Option<SriovNetwork>>)
    ensures !r.Panic?
    ensures podNetworks == "" <==> r == Err(EmptySriovAnnotation)
    ensures r == Ok(None) <==> podNetworks != "" && !ContainsAny(podNetworks, JsonMarkers)
    ensures r.Err? && podNetworks != "" <==>
              ContainsAny(podNetworks, JsonMarkers) && decode(podNetworks).Failure?
    ensures r.Err? && podNetworks != "" ==> r.error == MalformedSriovAnnotation(decode(podNetworks).message)
    ensures r.Ok? && r.value.Some? ==> decode(podNetworks) == Success(r.value.value)
  {
    if podNetworks == "" then Err(EmptySriovAnnotation)
    else if IndexAny(podNetworks, JsonMarkers) >= 0 then
      match decode(podNetworks)
      case Failure(msg) => Err(MalformedSriovAnnotation(msg))
      case Success(networks) => Ok(Some(networks))
    else Ok(None)
  }

  /** The index of the first owner reference of VirtualMachineInstance kind. */
  function FirstVmiRef(refs: seq<OwnerRef>): (r: Option<nat>)
    ensures r.None? <==> forall i :: 0 <= i < |refs| ==> refs[i].kind != VirtualMachineInstanceKind
    ensures r.Some? ==> r.value < |refs| && refs[r.value].kind == VirtualMachineInstanceKind
    ensures r.Some? ==> forall j :: 0 <= j < r.value ==> refs[j].kind != VirtualMachineInstanceKind
  {
    if |refs| == 0 then None
    else if refs[0].kind == VirtualMachineInstanceKind then Some(0)
    else
      match FirstVmiRef(refs[1..])
      case None => None
      case Some(i) => Some(i + 1)
  }

  /** `isRelatedToKubevirt`: only the first VirtualMachineInstance owner is
      looked at, by one VirtualMachine lookup in the pod's namespace. A
      NotFound answer means "not owned"; a found VM and every other error
      mean "owned". */
  function IsRelatedToKubevirt(pod: Pod, c: Cluster): (r: Reply<bool>)
    ensures Extends(c, r.cluster) && r.cluster.nads == c.nads && r.cluster.revision == c.revision
    ensures FirstVmiRef(pod.ownerRefs).None? ==> r == Reply(c, false)
    ensures FirstVmiRef(pod.ownerRefs).Some? ==>
              var k := Key(pod.ownerRefs[FirstVmiRef(pod.ownerRefs).value].name, pod.namespace);
              && CallsSince(c, r.cluster) == [Call(GetVirtualMachine, k)]
              && (r.result <==> k in c.vms || Call(GetVirtualMachine, k) in c.faults)
  {
    if pod.ownerRefs == [] then Reply(c, false)
    else
      match FirstVmiRef(pod.ownerRefs)
      case None => Reply(c, false)
      case Some(i) =>
        var lookup := GetVm(c, Key(pod.ownerRefs[i].name, pod.namespace));
        Reply(lookup.cluster, !lookup.result.Absent?)
  }

  /** The definition rendered and converted for entry `si`. */
  function DesiredNad(env: Env, si: SriovIpAddress, resourceName: string): Outcome<NetAttDef>
  {
    match RenderNetAttDef(si, resourceName, env.renderDir)
    case Ok(raw) =>
      (match env.convert(raw)
       case Success(nad) => Ok(nad)
       case Failure(msg) => Err(ConvertFailed(msg)))
    case Err(e) => Err(e)
    case Panic(p) => Panic(p)
  }

  /** The key entry `si` reconciles, when rendering and conversion succeed. */
  function DesiredKey(env: Env, si: SriovIpAddress, resourceName: string): Option<Key>
  {
    var n := DesiredNad(env, si, resourceName);
    if n.Ok? then Some(KeyOf(n.value)) else None
  }

  function WriteStatus(e: Option<StoreError>): Status
  {
    if e.Some? then Err(StoreFailed(e.value)) else Done
  }

  /** The store half of one pass of the reconcile loop for definition `n`:
      get it by key, create it when NotFound, update it carrying the stored
      resource version when its spec or annotations differ. Since an update
      always carries the version just read and a create follows a NotFound
      on a store nobody else writes, only server errors can fail it. */
  function Apply(c: Cluster, n: NetAttDef): (r: Reply<Status>)
    ensures Extends(c, r.cluster)
    ensures c.nads.Keys <= r.cluster.nads.Keys
    ensures forall k {:trigger AgreeAt(c.nads, r.cluster.nads, k)} :: k != KeyOf(n) ==> AgreeAt(c.nads, r.cluster.nads, k)
    ensures r.result.Ok? ==>
              && KeyOf(n) in r.cluster.nads
              && SameContent(r.cluster.nads[KeyOf(n)], n)
              && Call(GetNetAttDef, KeyOf(n)) !in c.faults
    ensures !r.result.Panic?
    ensures !r.result.Ok? ==> r.cluster.nads == c.nads
    ensures r.result.Err? ==> r.result.error.StoreFailed? && r.result.error.cause.Unavailable?
    ensures forall call :: call in CallsSince(c, r.cluster) && call.verb == CreateNetAttDef ==>
              call.key == KeyOf(n) && KeyOf(n) !in c.nads
    ensures var k := KeyOf(n);
            && 1 <= |CallsSince(c, r.cluster)| <= 2
            && CallsSince(c, r.cluster)[0] == Call(GetNetAttDef, k)
            && (Call(GetNetAttDef, k) in c.faults ==>
                  r == Reply(Issue(c, Call(GetNetAttDef, k)), Err(StoreFailed(Unavailable(Call(GetNetAttDef, k))))))
            && (Call(GetNetAttDef, k) !in c.faults && k !in c.nads ==>
                  && CallsSince(c, r.cluster) == [Call(GetNetAttDef, k), Call(CreateNetAttDef, k)]
                  && (r.result.Ok? <==> Call(CreateNetAttDef, k) !in c.faults))
            && (Call(GetNetAttDef, k) !in c.faults && k in c.nads && SameContent(c.nads[k], n) ==>
                  r == Reply(Issue(c, Call(GetNetAttDef, k)), Done))
            && (Call(GetNetAttDef, k) !in c.faults && k in c.nads && !SameContent(c.nads[k], n) ==>
                  && CallsSince(c, r.cluster) == [Call(GetNetAttDef, k), Call(UpdateNetAttDef, k)]
                  && (r.result.Ok? <==> Call(UpdateNetAttDef, k) !in c.faults)
                  && (r.result.Ok? ==> r.cluster.nads[k].resourceVersion == r.cluster.revision > c.revision))
  {
    var got := GetNad(c, KeyOf(n));
    match got.result
    case Absent =>
      var w := Create(got.cluster, n);
      assert CallsSince(c, w.cluster) == [Call(GetNetAttDef, KeyOf(n)), Call(CreateNetAttDef, KeyOf(n))] by {
        CallsSinceSplit(c, got.cluster, w.cluster);
      }
      Reply(w.cluster, WriteStatus(w.result))
    case LookupFailed(e) =>
      Reply(got.cluster, Err(StoreFailed(e)))
    case Found(found) =>
      if !SameContent(found, n) then
        var carried := n.(resourceVersion := found.resourceVersion);
        assert KeyOf(carried) == KeyOf(n);
        var w := Update(got.cluster, carried);
        assert CallsSince(c, w.cluster) == [Call(GetNetAttDef, KeyOf(n)), Call(UpdateNetAttDef, KeyOf(n))] by {
          CallsSinceSplit(c, got.cluster, w.cluster);
        }
        Reply(w.cluster, WriteStatus(w.result))
      else
        Reply(got.cluster, Done)
  }

  /** One pass of the reconcile loop: render and convert the entry, then
      `Apply`; a rendering or conversion failure stops before any call. */
  function Step(env: Env, c: Cluster, si: SriovIpAddress, resourceName: string): (r: Reply<Status>)
    ensures Extends(c, r.cluster)
    ensures c.nads.Keys <= r.cluster.nads.Keys
    ensures forall k {:trigger AgreeAt(c.nads, r.cluster.nads, k)} ::
              DesiredKey(env, si, resourceName) != Some(k) ==> AgreeAt(c.nads, r.cluster.nads, k)
    ensures !DesiredNad(env, si, resourceName).Ok? ==>
              r == Reply(c, DesiredNad(env, si, resourceName).PropagateFailure())
    ensures DesiredNad(env, si, resourceName).Ok? ==> r == Apply(c, DesiredNad(env, si, resourceName).value)
    ensures !r.result.Ok? ==> r.cluster.nads == c.nads
    ensures r.result.Ok? ==>
              && DesiredNad(env, si, resourceName).Ok?
              && var n := DesiredNad(env, si, resourceName).value;
              && KeyOf(n) in r.cluster.nads
              && SameContent(r.cluster.nads[KeyOf(n)], n)
              && Call(GetNetAttDef, KeyOf(n)) !in c.faults
    ensures r.result.Err? && r.result.error.StoreFailed? ==> r.result.error.cause.Unavailable?
    ensures forall call :: call in CallsSince(c, r.cluster) && call.verb == CreateNetAttDef ==>
              call.key !in c.nads && DesiredKey(env, si, resourceName) == Some(call.key)
  {
    match DesiredNad(env, si, resourceName)
    case Ok(nad) => Apply(c, nad)
    case Err(e) => Reply(c, Err(e))
    case Panic(p) => Reply(c, Panic(p))
  }

  /** No entry of `pool` reconciles key `k`. */
  predicate Untouched(env: Env, pool: seq<SriovIpAddress>, resourceName: string, k: Key)
  {
    forall i :: 0 <= i < |pool| ==> DesiredKey(env, pool[i], resourceName) != Some(k)
  }

  /** The reconcile loop over the whole pool: entries in order, stopping at
      the first failure and undoing nothing. What it leaves in the store is
      stated by the lemmas that follow. */
  function Run(env: Env, c: Cluster, pool: seq<SriovIpAddress>, resourceName: string): (r: Reply<Status>)
    decreases |pool|
    ensures Extends(c, r.cluster)
    ensures c.nads.Keys <= r.cluster.nads.Keys
    ensures r.result.Err? && r.result.error.StoreFailed? ==> r.result.error.cause.Unavailable?
  {
    if |pool| == 0 then Reply(c, Done)
    else
      var first := Step(env, c, pool[0], resourceName);
      if !first.result.Ok? then first
      else Run(env, first.cluster, pool[1..], resourceName)
  }

  /** Keys no entry of the pool reconciles are left exactly as they were. */
  lemma {:induction false} RunFrame(env: Env, c: Cluster, pool: seq<SriovIpAddress>, resourceName: string, k: Key)
    requires Untouched(env, pool, resourceName, k)
    ensures AgreeAt(c.nads, Run(env, c, pool, resourceName).cluster.nads, k)
    decreases |pool|
  {
    if |pool| > 0 {
      var first := Step(env, c, pool[0], resourceName);
      assert DesiredKey(env, pool[0], resourceName) != Some(k);
      if first.result.Ok? {
        assert Untouched(env, pool[1..], resourceName, k) by {
          forall i | 0 <= i < |pool| - 1 ensures DesiredKey(env, pool[1..][i], resourceName) != Some(k) {
            assert pool[1..][i] == pool[i + 1];
          }
        }
        RunFrame(env, first.cluster, pool[1..], resourceName, k);
      }
    }
  }

  /** A successful run leaves every entry's definition stored under its key,
      and an entry no later entry overwrites has its spec and annotations
      there. */
  lemma {:induction false} RunCompletes(env: Env, c: Cluster, pool: seq<SriovIpAddress>, resourceName: string, i: nat)
    requires i < |pool|
    requires Run(env, c, pool, resourceName).result.Ok?
    ensures DesiredNad(env, pool[i], resourceName).Ok?
    ensures var n := DesiredNad(env, pool[i], resourceName).value;
            var nads := Run(env, c, pool, resourceName).cluster.nads;
            && KeyOf(n) in nads
            && (Untouched(env, pool[i + 1..], resourceName, KeyOf(n)) ==> SameContent(nads[KeyOf(n)], n))
    decreases |pool|
  {
    var first := Step(env, c, pool[0], resourceName);
    assert first.result.Ok?;
    var rest := Run(env, first.cluster, pool[1..], resourceName);
    assert Run(env, c, pool, resourceName) == rest;
    if i > 0 {
      assert pool[1..][i - 1] == pool[i];
      assert pool[1..][i..] == pool[i + 1..];
      RunCompletes(env, first.cluster, pool[1..], resourceName, i - 1);
    } else {
      var k := KeyOf(DesiredNad(env, pool[0], resourceName).value);
      assert k in first.cluster.nads;
      assert first.cluster.nads.Keys <= rest.cluster.nads.Keys;
      if Untouched(env, pool[1..], resourceName, k) {
        RunFrame(env, first.cluster, pool[1..], resourceName, k);
      }
    }
  }

  /** Every create a run issues is for a key the store did not hold when
      the run began. */
  lemma {:induction false} RunCreatesOnlyAbsent(env: Env, c: Cluster, pool: seq<SriovIpAddress>, resourceName: string)
    ensures var r := Run(env, c, pool, resourceName);
            forall call :: call in CallsSince(c, r.cluster) && call.verb == CreateNetAttDef ==> call.key !in c.nads
    decreases |pool|
  {
    if |pool| > 0 {
      var first := Step(env, c, pool[0], resourceName);
      if first.result.Ok? {
        var rest := Run(env, first.cluster, pool[1..], resourceName);
        assert Run(env, c, pool, resourceName) == rest;
        RunCreatesOnlyAbsent(env, first.cluster, pool[1..], resourceName);
        CallsSinceSplit(c, first.cluster, rest.cluster);
        forall call | call in CallsSince(c, rest.cluster) && call.verb == CreateNetAttDef
          ensures call.key !in c.nads
        {
          if call !in CallsSince(c, first.cluster) {
            assert call in CallsSince(first.cluster, rest.cluster);
            assert call.key !in first.cluster.nads;
          }
        }
      } else {
        assert Run(env, c, pool, resourceName) == first;
      }
    }
  }

  /** Once a prefix of the pool has gone through, the run carries on from
      the state that prefix left. */
  lemma {:induction false} RunSplit(env: Env, c: Cluster, pool: seq<SriovIpAddress>, resourceName: string, j: nat)
    requires j <= |pool|
    requires Run(env, c, pool[..j], resourceName).result.Ok?
    ensures Run(env, c, pool, resourceName) == Run(env, Run(env, c, pool[..j], resourceName).cluster, pool[j..], resourceName)
    decreases j
  {
    if j == 0 {
      assert pool[..0] == [] && pool[0..] == pool;
    } else {
      assert pool[..j][0] == pool[0];
      assert pool[..j][1..] == pool[1..][..j - 1];
      assert pool[1..][j - 1..] == pool[j..];
      var first := Step(env, c, pool[0], resourceName);
      RunSplit(env, first.cluster, pool[1..], resourceName, j - 1);
    }
  }

  /** The loop stops at the first entry that fails: when the first `j`
      entries went through and entry `j` fails, the run ends with that
      pass, its cluster and its error or panic. */
  lemma RunStopsAtFailure(env: Env, c: Cluster, pool: seq<SriovIpAddress>, resourceName: string, j: nat)
    requires j < |pool|
    requires Run(env, c, pool[..j], resourceName).result.Ok?
    requires !Step(env, Run(env, c, pool[..j], resourceName).cluster, pool[j], resourceName).result.Ok?
    ensures Run(env, c, pool, resourceName) == Step(env, Run(env, c, pool[..j], resourceName).cluster, pool[j], resourceName)
  {
    RunSplit(env, c, pool, resourceName, j);
    assert pool[j..][0] == pool[j];
  }

  /** No rollback: when the first `j` entries went through and entry `j`
      fails, the run returns that failure and the store is exactly what the
      first `j` entries left, so each of their definitions is still
      stored. */
  lemma RunKeepsEarlierWrites(env: Env, c: Cluster, pool: seq<SriovIpAddress>, resourceName: string, j: nat)
    requires j < |pool|
    requires Run(env, c, pool[..j], resourceName).result.Ok?
    requires !Step(env, Run(env, c, pool[..j], resourceName).cluster, pool[j], resourceName).result.Ok?
    ensures !Run(env, c, pool, resourceName).result.Ok?
    ensures Run(env, c, pool, resourceName).cluster.nads == Run(env, c, pool[..j], resourceName).cluster.nads
    ensures forall i :: 0 <= i < j ==>
              && DesiredKey(env, pool[i], resourceName).Some?
              && DesiredKey(env, pool[i], resourceName).value in Run(env, c, pool, resourceName).cluster.nads
  {
    RunStopsAtFailure(env, c, pool, resourceName, j);
    forall i | 0 <= i < j
      ensures && DesiredKey(env, pool[i], resourceName).Some?
              && DesiredKey(env, pool[i], resourceName).value in Run(env, c, pool, resourceName).cluster.nads
    {
      RunCompletes(env, c, pool[..j], resourceName, i);
      assert pool[..j][i] == pool[i];
    }
  }

  /** The loop of `AllocatePodIP` as the Go code writes it. */
  method Reconcile(env: Env, c: Cluster, pool: seq<SriovIpAddress>, resourceName: string)
    returns (cluster: Cluster, status: Status)
    ensures Reply(cluster, status) == Run(env, c, pool, resourceName)
  {
    cluster := c;
    var i := 0;
    while i < |pool|
      invariant 0 <= i <= |pool|
      invariant Run(env, c, pool, resourceName) == Run(env, cluster, pool[i..], resourceName)
    {
      assert pool[i..][1..] == pool[i + 1..];
      var network := pool[i];
      var raw := RenderNetAttDef(network, resourceName, env.renderDir);
      if !raw.Ok? {
        return cluster, raw.PropagateFailure();
      }
      var converted := env.convert(raw.value);
      if converted.Failure? {
        return cluster, Err(ConvertFailed(converted.message));
      }
      var netAttDef := converted.value;
      var got := GetNad(cluster, KeyOf(netAttDef));
      cluster := got.cluster;
      match got.result {
        case Absent =>
          var created := Create(cluster, netAttDef);
          cluster := created.cluster;
          if created.result.Some? {
            return cluster, Err(StoreFailed(created.result.value));
          }
        case LookupFailed(e) =>
          return cluster, Err(StoreFailed(e));
        case Found(found) =>
          if !SameContent(found, netAttDef) {
            var updated := Update(cluster, netAttDef.(resourceVersion := found.resourceVersion));
            cluster := updated.cluster;
            if updated.result.Some? {
              return cluster, Err(StoreFailed(updated.result.value));
            }
          }
      }
      i := i + 1;
    }
    status := Done;
  }

  /** The output annotation naming the first entry, byte for byte as the Go
      code concatenates it. */
  function NetworksJson(si: SriovIpAddress): string
  {
    "[{\"name\": \"" + si.name + "\", \"namespace\":\"" + si.namespace + "\"}]"
  }

  /** The pod after `AllocatePodIP` returns, the cluster after its client
      calls, and the error it returns or the panic it raises. */
  datatype Allocation = Allocation(pod: Pod, cluster: Cluster, status: Status)

  /** The request a pod carries: present only when the annotation exists and
      parses to a non-nil request. */
  function RequestOf(env: Env, pod: Pod): Option<SriovNetwork>
  {
    if !HasAnnotation(pod, SriovNetworksAnnotation) then None
    else
      var parsed := ParsePodNetworkAnnotation(env.decode, pod.annotations.value[SriovNetworksAnnotation], pod.namespace);
      if parsed.Ok? then parsed.value else None
  }

  /** `p2` differs from `p` at most in the networks annotation. */
  ghost predicate OnlyNetworksChanged(p: Pod, p2: Pod)
  {
    && p2.name == p.name && p2.namespace == p.namespace && p2.ownerRefs == p.ownerRefs
    && (p2.annotations.Some? <==> p.annotations.Some?)
    && forall k :: k != NetworksAnnotation ==>
         (HasAnnotation(p2, k) <==> HasAnnotation(p, k)) && AnnotationOf(p2, k) == AnnotationOf(p, k)
  }

  /** The part of `AllocatePodIP` after a request has been parsed: nothing
      for an empty pool or a pod KubeVirt owns; otherwise the reconcile loop
      and, when it succeeds, the networks annotation naming the first entry. */
  function AllocateNetworks(env: Env, pod: Pod, c: Cluster, networks: SriovNetwork): (r: Allocation)
    requires pod.annotations.Some?
    ensures Extends(c, r.cluster) && c.nads.Keys <= r.cluster.nads.Keys
    ensures OnlyNetworksChanged(pod, r.pod)
    ensures !r.status.Ok? ==> r.pod == pod
    ensures |networks.ipPool| == 0 ==> r == Allocation(pod, c, Done)
    ensures IsRelatedToKubevirt(pod, c).result ==> r.pod == pod && r.status == Done && r.cluster.nads == c.nads
    ensures |networks.ipPool| > 0 && IsRelatedToKubevirt(pod, c).result ==>
              r == Allocation(pod, IsRelatedToKubevirt(pod, c).cluster, Done)
    ensures r.pod != pod ==>
              && r.status.Ok? && |networks.ipPool| > 0
              && r.pod == pod.(annotations := Some(pod.annotations.value[NetworksAnnotation := NetworksJson(networks.ipPool[0])]))
  {
    if |networks.ipPool| == 0 then Allocation(pod, c, Done)
    else
      var owned := IsRelatedToKubevirt(pod, c);
      if owned.result then Allocation(pod, owned.cluster, Done)
      else
        var run := Run(env, owned.cluster, networks.ipPool, networks.resourceName);
        if !run.result.Ok? then Allocation(pod, run.cluster, run.result)
        else
          var first := networks.ipPool[0];
          var annotations := pod.annotations.value[NetworksAnnotation := NetworksJson(first)];
          Allocation(pod.(annotations := Some(annotations)), run.cluster, Done)
  }

  /** `AllocatePodIP`. `isNotDryRun` is accepted and never read, so a dry run
      writes to the cluster like any other. */
  function AllocatePodIP(env: Env, pod: Pod, c: Cluster, isNotDryRun: bool): (r: Allocation)
    ensures Extends(c, r.cluster) && c.nads.Keys <= r.cluster.nads.Keys
    ensures OnlyNetworksChanged(pod, r.pod)
    ensures !r.status.Ok? ==> r.pod == pod
    ensures !HasAnnotation(pod, SriovNetworksAnnotation) ==> r == Allocation(pod, c, Done)
    ensures HasAnnotation(pod, SriovNetworksAnnotation) ==>
              var value := pod.annotations.value[SriovNetworksAnnotation];
              && (value == "" ==> r == Allocation(pod, c, Err(EmptySriovAnnotation)))
              && (value != "" && !ContainsAny(value, JsonMarkers) ==> r == Allocation(pod, c, Panic(NilNetworkRequest)))
              && (value != "" && ContainsAny(value, JsonMarkers) && env.decode(value).Failure? ==>
                    r == Allocation(pod, c, Err(MalformedSriovAnnotation(env.decode(value).message))))
    ensures RequestOf(env, pod).Some? ==> r == AllocateNetworks(env, pod, c, RequestOf(env, pod).value)
  {
    if !HasAnnotation(pod, SriovNetworksAnnotation) then Allocation(pod, c, Done)
    else
      match ParsePodNetworkAnnotation(env.decode, pod.annotations.value[SriovNetworksAnnotation], pod.namespace)
      case Err(e) => Allocation(pod, c, Err(e))
      case Panic(p) => Allocation(pod, c, Panic(p))
      case Ok(None) => Allocation(pod, c, Panic(NilNetworkRequest))
      case Ok(Some(networks)) => AllocateNetworks(env, pod, c, networks)
  }

  /** A successful allocation for a pod KubeVirt does not own is the
      reconcile loop's successful run after the ownership lookup, with the
      networks annotation naming the first entry. */
  lemma UnownedAllocationRuns(env: Env, pod: Pod, c: Cluster, networks: SriovNetwork)
    requires pod.annotations.Some? && |networks.ipPool| > 0
    requires !IsRelatedToKubevirt(pod, c).result
    requires AllocateNetworks(env, pod, c, networks).status.Ok?
    ensures var run := Run(env, IsRelatedToKubevirt(pod, c).cluster, networks.ipPool, networks.resourceName);
            var r := AllocateNetworks(env, pod, c, networks);
            && run.result.Ok?
            && r.cluster == run.cluster
            && AnnotationOf(r.pod, NetworksAnnotation) == NetworksJson(networks.ipPool[0])
  {
  }

  /** For a pod KubeVirt does not own and a non-empty pool, the allocation
      returns exactly what the reconcile loop returns, its error or panic
      included, and leaves the cluster the loop left. */
  lemma UnownedAllocationIsRun(env: Env, pod: Pod, c: Cluster, networks: SriovNetwork)
    requires pod.annotations.Some? && |networks.ipPool| > 0
    requires !IsRelatedToKubevirt(pod, c).result
    ensures var run := Run(env, IsRelatedToKubevirt(pod, c).cluster, networks.ipPool, networks.resourceName);
            var r := AllocateNetworks(env, pod, c, networks);
            r.cluster == run.cluster && r.status == run.result
  {
    var run := Run(env, IsRelatedToKubevirt(pod, c).cluster, networks.ipPool, networks.resourceName);
    if run.result.Ok? {
      assert run.result.value == ();
      assert run.result == Done;
    } else {
      assert AllocateNetworks(env, pod, c, networks) == Allocation(pod, run.cluster, run.result);
    }
  }

  /** No rollback at the level of `AllocatePodIP`: when entry `j` of the
      requested pool fails after the entries before it went through, the
      allocation returns entry `j`'s failure, leaves the pod alone and
      keeps every definition the earlier entries stored. */
  lemma AllocationKeepsEarlierWrites(env: Env, pod: Pod, c: Cluster, isNotDryRun: bool, j: nat)
    requires RequestOf(env, pod).Some?
    requires var networks := RequestOf(env, pod).value;
             && j < |networks.ipPool|
             && !IsRelatedToKubevirt(pod, c).result
             && var prefix := Run(env, IsRelatedToKubevirt(pod, c).cluster, networks.ipPool[..j], networks.resourceName);
                && prefix.result.Ok?
                && !Step(env, prefix.cluster, networks.ipPool[j], networks.resourceName).result.Ok?
    ensures var networks := RequestOf(env, pod).value;
            var prefix := Run(env, IsRelatedToKubevirt(pod, c).cluster, networks.ipPool[..j], networks.resourceName);
            var r := AllocatePodIP(env, pod, c, isNotDryRun);
            && r.status == Step(env, prefix.cluster, networks.ipPool[j], networks.resourceName).result
            && !r.status.Ok?
            && r.pod == pod
            && r.cluster.nads == prefix.cluster.nads
  {
    var networks := RequestOf(env, pod).value;
    var owned := IsRelatedToKubevirt(pod, c);
    UnownedAllocationIsRun(env, pod, c, networks);
    RunStopsAtFailure(env, owned.cluster, networks.ipPool, networks.resourceName, j);
    RunKeepsEarlierWrites(env, owned.cluster, networks.ipPool, networks.resourceName, j);
  }

  /** A successful allocation for a pod KubeVirt does not own stores a
      definition under every requested key, with the entry's own spec and
      annotations when no later entry reconciles the same key, and names
      the first entry in the networks annotation. */
  lemma AllocationStoresPool(env: Env, pod: Pod, c: Cluster, networks: SriovNetwork, i: nat)
    requires pod.annotations.Some? && i < |networks.ipPool|
    requires !IsRelatedToKubevirt(pod, c).result
    requires AllocateNetworks(env, pod, c, networks).status.Ok?
    ensures var r := AllocateNetworks(env, pod, c, networks);
            && DesiredKey(env, networks.ipPool[i], networks.resourceName).Some?
            && DesiredKey(env, networks.ipPool[i], networks.resourceName).value in r.cluster.nads
            && AnnotationOf(r.pod, NetworksAnnotation) == NetworksJson(networks.ipPool[0])
    ensures var r := AllocateNetworks(env, pod, c, networks);
            var n := DesiredNad(env, networks.ipPool[i], networks.resourceName).value;
            && KeyOf(n) in r.cluster.nads
            && (Untouched(env, networks.ipPool[i + 1..], networks.resourceName, KeyOf(n)) ==> SameContent(r.cluster.nads[KeyOf(n)], n))
  {
    UnownedAllocationRuns(env, pod, c, networks);
    RunCompletes(env, IsRelatedToKubevirt(pod, c).cluster, networks.ipPool, networks.resourceName, i);
  }
}

=== FILE: pod_webhook.dfy ===
/** The mutating admission handler for pods: decode the pod, let the IP
    manager allocate, and answer with a JSON patch that carries only what
    the allocation changed in the networks annotation. */
module PodWebhook {
  import opened Basics
  import opened Kube
  import opened Errors
  import opened Constants
  import opened PodIp

  const StatusBadRequest: int := 400
  const StatusInternalServerError: int := 500

  const ReplaceOp: string := "replace"
  const AnnotationsPath: string := "/metadata/annotations"

  /** One JSON patch operation; `value` is the annotation map it carries,
      `None` for a nil map. */
  datatype PatchOp = PatchOp(op: string, path: string, value: Option<Annotations>)

  datatype PatchType = JsonPatch

  /** Why a request was refused: the pod could not be decoded, or the IP
      manager returned an error. */
  datatype Cause = DecodeFailed(message: string) | AllocationFailed(error: Error)

  datatype StatusResult = StatusResult(code: int, cause: Cause)

  /** The fields of an `admission.Response` the handler sets. */
  datatype Response = Response(allowed: bool, patches: seq<PatchOp>, patchType: Option<PatchType>, result: Option<StatusResult>)

  /** The admission request: the pod as the decoder sees it, and the dry-run
      flag (`None` when it is nil). */
  datatype AdmissionRequest = AdmissionRequest(decoded: Fallible<Pod>, dryRun: Option<bool>)

  /** What the handler does with a request: answer it, or panic along with
      the IP manager (there is no `recover`), so the request gets no answer.
      Either way the cluster has seen the calls made so far. */
  datatype Handled = Responded(response: Response, cluster: Cluster) | Panicked(reason: PanicReason, cluster: Cluster)

  /** `admission.Errored`: refused, with the code and the error. */
  function Errored(code: int, cause: Cause): (r: Response)
    ensures !r.allowed && r.patches == [] && r.patchType.None?
    ensures r.result == Some(StatusResult(code, cause))
  {
    Response(false, [], None, Some(StatusResult(code, cause)))
  }

  /** `patchPodChanges`: one replace of the whole annotation map when the
      networks annotation differs (a missing key or a nil map read as ""),
      and no patch otherwise; always allowed. */
  function PatchPodChanges(original: Pod, current: Pod): (r: Response)
    ensures r.allowed && r.result.None?
    ensures r.patches == [] <==> AnnotationOf(original, NetworksAnnotation) == AnnotationOf(current, NetworksAnnotation)
    ensures r.patchType.None? <==> r.patches == []
    ensures r.patches != [] ==>
              && r.patches == [PatchOp(ReplaceOp, AnnotationsPath, current.annotations)]
              && r.patchType == Some(JsonPatch)
  {
    var patches :=
      if AnnotationOf(original, NetworksAnnotation) != AnnotationOf(current, NetworksAnnotation)
      then [PatchOp(ReplaceOp, AnnotationsPath, current.annotations)]
      else [];
    if |patches| == 0 then Response(true, patches, None, None)
    else Response(true, patches, Some(JsonPatch), None)
  }

  /** What the API server does with the patch: each replace of
      `/metadata/annotations` sets the whole annotation map. */
  function ApplyPatch(pod: Pod, patches: seq<PatchOp>): Pod
    decreases |patches|
  {
    if |patches| == 0 then pod
    else
      var next := if patches[0].op == ReplaceOp && patches[0].path == AnnotationsPath
                  then pod.(annotations := patches[0].value) else pod;
      ApplyPatch(next, patches[1..])
  }

  /** The dry-run flag as `Handle` computes it; it is passed on and never
      acted upon. */
  function IsNotDryRun(req: AdmissionRequest): bool
  {
    req.dryRun.None? || req.dryRun == Some(false)
  }

  /** The pod `Handle` gives the IP manager: a nil annotation map becomes an
      empty one. The original is kept aside before this. */
  function WithAnnotationMap(pod: Pod): (r: Pod)
    ensures r.annotations.Some?
    ensures forall k :: AnnotationOf(r, k) == AnnotationOf(pod, k)
    ensures r == pod.(annotations := r.annotations)
  {
    if pod.annotations.None? then pod.(annotations := Some(map[])) else pod
  }

  /** `Handle`. */
  function Handle(env: Env, req: AdmissionRequest, c: Cluster): (h: Handled)
    ensures req.decoded.Failure? ==> h == Responded(Errored(StatusBadRequest, DecodeFailed(req.decoded.message)), c)
    ensures req.decoded.Success? ==>
              var a := AllocatePodIP(env, WithAnnotationMap(req.decoded.value), c, IsNotDryRun(req));
              && h.cluster == a.cluster
              && (a.status.Err? <==> h.Responded? && !h.response.allowed)
              && (a.status.Err? ==> h.response == Errored(StatusInternalServerError, AllocationFailed(a.status.error)))
              && (a.status.Panic? <==> h.Panicked?)
              && (a.status.Panic? ==> h.reason == a.status.reason)
              && (a.status.Ok? ==> h.Responded? && h.response.allowed)
              && (a.status.Ok? ==>
                    && (h.response.patches == [] <==>
                          AnnotationOf(req.decoded.value, NetworksAnnotation) == AnnotationOf(a.pod, NetworksAnnotation))
                    && (h.response.patches != [] ==> h.response.patches == [PatchOp(ReplaceOp, AnnotationsPath, a.pod.annotations)]))
  {
    match req.decoded
    case Failure(msg) => Responded(Errored(StatusBadRequest, DecodeFailed(msg)), c)
    case Success(pod) =>
      var original := pod;
      var prepared := WithAnnotationMap(pod);
      var allocation := AllocatePodIP(env, prepared, c, IsNotDryRun(req));
      match allocation.status
      case Err(e) => Responded(Errored(StatusInternalServerError, AllocationFailed(e)), allocation.cluster)
      case Panic(p) => Panicked(p, allocation.cluster)
      case Ok(_) => Responded(PatchPodChanges(original, allocation.pod), allocation.cluster)
  }

  /** The patch is the allocation's change: applied to the pod as it was
      submitted, it gives every annotation the value the IP manager left. */
  lemma HandlePatchReproducesAllocation(env: Env, req: AdmissionRequest, c: Cluster)
    requires req.decoded.Success?
    requires Handle(env, req, c).Responded? && Handle(env, req, c).response.allowed
    ensures var pod := req.decoded.value;
            var a := AllocatePodIP(env, WithAnnotationMap(pod), c, IsNotDryRun(req));
            var patched := ApplyPatch(pod, Handle(env, req, c).response.patches);
            forall k :: AnnotationOf(patched, k) == AnnotationOf(a.pod, k)
  {
    var pod := req.decoded.value;
    var prepared := WithAnnotationMap(pod);
    var a := AllocatePodIP(env, prepared, c, IsNotDryRun(req));
    var response := PatchPodChanges(pod, a.pod);
    assert Handle(env, req, c).response == response;
    if response.patches != [] {
      assert ApplyPatch(pod, response.patches) == pod.(annotations := a.pod.annotations);
    } else {
      assert ApplyPatch(pod, response.patches) == pod;
      assert OnlyNetworksChanged(prepared, a.pod);
    }
  }

  /** A pod submitted with no annotation map at all and nothing to allocate
      is admitted without a patch: the empty map the handler substitutes is
      not a change. */
  lemma NilAnnotationsAloneNoPatch(env: Env, pod: Pod, dryRun: Option<bool>, c: Cluster)
    requires pod.annotations.None?
    ensures Handle(env, AdmissionRequest(Success(pod), dryRun), c) == Responded(Response(true, [], None, None), c)
  {
    var prepared := WithAnnotationMap(pod);
    assert !HasAnnotation(prepared, SriovNetworksAnnotation);
  }

  /** The dry-run flag changes nothing: a dry run writes to the cluster and
      answers exactly as a real one. */
  lemma HandleIgnoresDryRun(env: Env, pod: Fallible<Pod>, dryRun: Option<bool>, c: Cluster)
    ensures Handle(env, AdmissionRequest(pod, dryRun), c) == Handle(env, AdmissionRequest(pod, None), c)
  {
    if pod.Success? {
      AllocationIgnoresDryRun(env, WithAnnotationMap(pod.value), c, IsNotDryRun(AdmissionRequest(pod, dryRun)));
    }
  }

  lemma AllocationIgnoresDryRun(env: Env, pod: Pod, c: Cluster, isNotDryRun: bool)
    ensures AllocatePodIP(env, pod, c, isNotDryRun) == AllocatePodIP(env, pod, c, true)
  {
  }
}

=== FILE: sriov_networks.dfy ===
/** The SR-IOV network request and the template data rendered from one of
    its address entries. */
module SriovNetworks {
  import opened Basics
  import opened Constants
  import opened Errors

  /** One entry of the request's `ippool`. An omitted integer decodes as 0,
      an omitted string as "", an omitted rate as `None`. */
  datatype SriovIpAddress = SriovIpAddress(
    name: string,
    namespace: string,
    address: string,
    gateway: string,
    nameservers: string,
    vlan: int,
    vlanQoS: int,
    spoofChk: string,
    trust: string,
    linkState: string,
    minTxRate: Option<int>,
    maxTxRate: Option<int>)

  /** The request carried by the sriovnetworks annotation. */
  datatype SriovNetwork = SriovNetwork(subnet: string, resourceName: string, ipPool: seq<SriovIpAddress>)

  /** A template variable's value: Go's `interface{}` restricted to what is stored. */
  datatype Value = Str(s: string) | Int(i: int) | Bool(b: bool)

  /** The `Data` map of the renderer's input. Its key space is the closed set
      of template variables `RenderNetAttDef` knows, so it is kept as one
      optional slot per variable, named after the Go key: `None` is a key the
      map does not hold. */
  datatype RenderData = RenderData(
    cniType: Option<Value>,
    sriovNetworkName: Option<Value>,
    sriovNetworkNamespace: Option<Value>,
    sriovCniResourceName: Option<Value>,
    sriovCniVlan: Option<Value>,
    vlanQoSConfigured: Option<Value>,
    sriovCniVlanQoS: Option<Value>,
    spoofChkConfigured: Option<Value>,
    sriovCniSpoofChk: Option<Value>,
    trustConfigured: Option<Value>,
    sriovCniTrust: Option<Value>,
    stateConfigured: Option<Value>,
    sriovCniState: Option<Value>,
    minTxRateConfigured: Option<Value>,
    sriovCniMinTxRate: Option<Value>,
    maxTxRateConfigured: Option<Value>,
    sriovCniMaxTxRate: Option<Value>,
    sriovCniAddress: Option<Value>,
    sriovCniGateway: Option<Value>,
    sriovCniNameservers: Option<Value>)

  /** An object produced by the template renderer, kept opaque. */
  datatype Manifest = Manifest(text: string)

  predicate VlanQoSInRange(q: int) { 0 <= q <= 7 }

  predicate RateSet(rate: Option<int>) { rate.Some? && rate.value >= 0 }

  /** `MakeRenderData()` starts with no variables. */
  function MakeRenderData(): RenderData
  {
    RenderData(None, None, None, None, None, None, None, None, None, None,
               None, None, None, None, None, None, None, None, None, None)
  }

  // The blocks of `RenderNetAttDef` that set a "Configured" flag, each
  // written in the Go code's order of assignments. A switch first sets its
  // flag and clears it again in the default branch.

  function QoSBlock(d: RenderData, vlanQoS: int): RenderData
  {
    if vlanQoS <= 7 && vlanQoS >= 0
    then d.(vlanQoSConfigured := Some(Bool(true)), sriovCniVlanQoS := Some(Int(vlanQoS)))
    else d.(vlanQoSConfigured := Some(Bool(false)))
  }

  function SpoofChkBlock(d: RenderData, spoofChk: string): (r: RenderData)
    ensures r == d.(spoofChkConfigured := Some(Bool(ToggleOf(spoofChk).Some?)),
                    sriovCniSpoofChk := if ToggleOf(spoofChk).Some? then ToggleValue(ToggleOf(spoofChk)) else d.sriovCniSpoofChk)
  {
    var d := d.(spoofChkConfigured := Some(Bool(true)));
    if spoofChk == "off" then d.(sriovCniSpoofChk := Some(Str("off")))
    else if spoofChk == "on" then d.(sriovCniSpoofChk := Some(Str("on")))
    else d.(spoofChkConfigured := Some(Bool(false)))
  }

  function TrustBlock(d: RenderData, trust: string): (r: RenderData)
    ensures r == d.(trustConfigured := Some(Bool(ToggleOf(trust).Some?)),
                    sriovCniTrust := if ToggleOf(trust).Some? then ToggleValue(ToggleOf(trust)) else d.sriovCniTrust)
  {
    var d := d.(trustConfigured := Some(Bool(true)));
    if trust == "on" then d.(sriovCniTrust := Some(Str("on")))
    else if trust == "off" then d.(sriovCniTrust := Some(Str("off")))
    else d.(trustConfigured := Some(Bool(false)))
  }

  function StateBlock(d: RenderData, linkState: string): (r: RenderData)
    ensures r == d.(stateConfigured := Some(Bool(LinkStateOf(linkState).Some?)),
                    sriovCniState := if LinkStateOf(linkState).Some? then LinkStateValue(LinkStateOf(linkState)) else d.sriovCniState)
  {
    var d := d.(stateConfigured := Some(Bool(true)));
    if linkState == "enable" then d.(sriovCniState := Some(Str("enable")))
    else if linkState == "disable" then d.(sriovCniState := Some(Str("disable")))
    else if linkState == "auto" then d.(sriovCniState := Some(Str("auto")))
    else d.(stateConfigured := Some(Bool(false)))
  }

  function MinTxRateBlock(d: RenderData, rate: Option<int>): RenderData
  {
    var d := d.(minTxRateConfigured := Some(Bool(false)));
    if rate.Some? && rate.value >= 0
    then d.(minTxRateConfigured := Some(Bool(true)), sriovCniMinTxRate := Some(Int(rate.value)))
    else d
  }

  function MaxTxRateBlock(d: RenderData, rate: Option<int>): RenderData
  {
    var d := d.(maxTxRateConfigured := Some(Bool(false)));
    if rate.Some? && rate.value >= 0
    then d.(maxTxRateConfigured := Some(Bool(true)), sriovCniMaxTxRate := Some(Int(rate.value)))
    else d
  }

  /** The data map `RenderNetAttDef` builds for entry `si`, in the Go code's
      order. Its contract relates it to the typed encoding of the entry's
      effective configuration; `RenderedVariables` spells that out variable
      by variable. */
  function RenderDataOf(si: SriovIpAddress, resourceName: string): (d: RenderData)
    ensures d == Encode(Effective(si, resourceName))
  {
    var d := MakeRenderData();
    var d := d.(cniType := Some(Str("sriov")));
    var d := d.(sriovNetworkName := Some(Str(si.name)));
    var d := d.(sriovNetworkNamespace := Some(Str(si.namespace)));
    var d := d.(sriovCniResourceName := Some(Str(resourceName)));
    var d := d.(sriovCniVlan := Some(Int(si.vlan)));
    var d0 := d;
    var d := QoSBlock(d, si.vlanQoS);
    assert d.vlanQoSConfigured == Some(Bool(VlanQoSInRange(si.vlanQoS)));
    assert d.sriovCniVlanQoS == (if VlanQoSInRange(si.vlanQoS) then Some(Int(si.vlanQoS)) else d0.sriovCniVlanQoS);
    var d := SpoofChkBlock(d, si.spoofChk);
    var d := TrustBlock(d, si.trust);
    var d := StateBlock(d, si.linkState);
    var d1 := d;
    var d := MinTxRateBlock(d, si.minTxRate);
    assert d.minTxRateConfigured == Some(Bool(RateSet(si.minTxRate)));
    assert d.sriovCniMinTxRate == (if RateSet(si.minTxRate) then Some(Int(si.minTxRate.value)) else d1.sriovCniMinTxRate);
    var d2 := d;
    var d := MaxTxRateBlock(d, si.maxTxRate);
    assert d.maxTxRateConfigured == Some(Bool(RateSet(si.maxTxRate)));
    assert d.sriovCniMaxTxRate == (if RateSet(si.maxTxRate) then Some(Int(si.maxTxRate.value)) else d2.sriovCniMaxTxRate);
    var d := d.(sriovCniAddress := Some(Str(si.address)));
    var d := d.(sriovCniGateway := Some(Str(si.gateway)));
    d.(sriovCniNameservers := Some(Str(si.nameservers)))
  }

  /** `RenderNetAttDef`: hands the data to the template renderer `renderDir`
      (an opaque, fallible library call) and returns its first object. The
      renderer's error comes back unchanged; an empty successful rendering
      makes `objs[0]` panic. */
  function RenderNetAttDef(si: SriovIpAddress, resourceName: string,
                           renderDir: (string, RenderData) -> Fallible<seq<Manifest>>): (r: Outcome<Manifest>)
    ensures var rendered := renderDir(ManifestsPath, RenderDataOf(si, resourceName));
            && (r.Err? <==> rendered.Failure?)
            && (r.Err? ==> r.error == RenderFailed(rendered.message))
            && (r.Panic? <==> rendered == Success([]))
            && (r.Panic? ==> r.reason == NoRenderedObject)
            && (r.Ok? ==> rendered.Success? && |rendered.value| > 0 && r.value == rendered.value[0])
  {
    var data := RenderDataOf(si, resourceName);
    match renderDir(ManifestsPath, data)
    case Failure(msg) => Err(RenderFailed(msg))
    case Success(objs) => if |objs| == 0 then Panic(NoRenderedObject) else Ok(objs[0])
  }

  // A typed description of the same configuration: the recognised values
  // of each optional setting as closed enumerations, `None` for "unset".

  datatype Toggle = On | Off

  datatype LinkState = Enable | Disable | Auto

  datatype CniConfig = CniConfig(
    name: string,
    namespace: string,
    resourceName: string,
    vlan: int,
    vlanQoS: Option<int>,
    spoofChk: Option<Toggle>,
    trust: Option<Toggle>,
    linkState: Option<LinkState>,
    minTxRate: Option<int>,
    maxTxRate: Option<int>,
    address: string,
    gateway: string,
    nameservers: string)

  /** Only a QoS class in [0, 7] and non-negative rates count as set. */
  predicate ValidConfig(cfg: CniConfig)
  {
    && (cfg.vlanQoS.Some? ==> VlanQoSInRange(cfg.vlanQoS.value))
    && (cfg.minTxRate.Some? ==> cfg.minTxRate.value >= 0)
    && (cfg.maxTxRate.Some? ==> cfg.maxTxRate.value >= 0)
  }

  function ToggleOf(s: string): Option<Toggle>
  {
    if s == "on" then Some(On) else if s == "off" then Some(Off) else None
  }

  function ToggleText(t: Toggle): string
  {
    match t
    case On => "on"
    case Off => "off"
  }

  function LinkStateOf(s: string): Option<LinkState>
  {
    if s == "enable" then Some(Enable)
    else if s == "disable" then Some(Disable)
    else if s == "auto" then Some(Auto)
    else None
  }

  function LinkStateText(l: LinkState): string
  {
    match l
    case Enable => "enable"
    case Disable => "disable"
    case Auto => "auto"
  }

  /** The configuration an entry asks for: every unrecognised optional value
      reads as unset. */
  function Effective(si: SriovIpAddress, resourceName: string): (cfg: CniConfig)
    ensures ValidConfig(cfg)
  {
    CniConfig(
      si.name, si.namespace, resourceName, si.vlan,
      if VlanQoSInRange(si.vlanQoS) then Some(si.vlanQoS) else None,
      ToggleOf(si.spoofChk), ToggleOf(si.trust), LinkStateOf(si.linkState),
      if RateSet(si.minTxRate) then si.minTxRate else None,
      if RateSet(si.maxTxRate) then si.maxTxRate else None,
      si.address, si.gateway, si.nameservers)
  }

  function IntValue(v: Option<int>): Option<Value>
  {
    if v.Some? then Some(Int(v.value)) else None
  }

  function ToggleValue(t: Option<Toggle>): Option<Value>
  {
    if t.Some? then Some(Str(ToggleText(t.value))) else None
  }

  function LinkStateValue(l: Option<LinkState>): Option<Value>
  {
    if l.Some? then Some(Str(LinkStateText(l.value))) else None
  }

  /** The template data that describes a typed configuration: each flag says
      whether its setting is present. */
  function Encode(cfg: CniConfig): RenderData
  {
    RenderData(
      Some(Str("sriov")), Some(Str(cfg.name)), Some(Str(cfg.namespace)),
      Some(Str(cfg.resourceName)), Some(Int(cfg.vlan)),
      Some(Bool(cfg.vlanQoS.Some?)), IntValue(cfg.vlanQoS),
      Some(Bool(cfg.spoofChk.Some?)), ToggleValue(cfg.spoofChk),
      Some(Bool(cfg.trust.Some?)), ToggleValue(cfg.trust),
      Some(Bool(cfg.linkState.Some?)), LinkStateValue(cfg.linkState),
      Some(Bool(cfg.minTxRate.Some?)), IntValue(cfg.minTxRate),
      Some(Bool(cfg.maxTxRate.Some?)), IntValue(cfg.maxTxRate),
      Some(Str(cfg.address)), Some(Str(cfg.gateway)), Some(Str(cfg.nameservers)))
  }

  function AsStr(v: Option<Value>): Option<string>
  {
    if v.Some? && v.value.Str? then Some(v.value.s) else None
  }

  function AsInt(v: Option<Value>): Option<int>
  {
    if v.Some? && v.value.Int? then Some(v.value.i) else None
  }

  /** A flag is a boolean saying whether the variable it guards is defined. */
  predicate FlagAgrees(flag: Option<Value>, guarded: Option<Value>)
  {
    flag == Some(Bool(guarded.Some?))
  }

  /** Reads a typed configuration back out of template data, refusing data
      whose mandatory variables are missing or whose flags disagree with the
      variables they guard. */
  function Decode(d: RenderData): Option<CniConfig>
  {
    if !(&& AsStr(d.cniType) == Some("sriov")
         && AsStr(d.sriovNetworkName).Some? && AsStr(d.sriovNetworkNamespace).Some?
         && AsStr(d.sriovCniResourceName).Some? && AsInt(d.sriovCniVlan).Some?
         && AsStr(d.sriovCniAddress).Some? && AsStr(d.sriovCniGateway).Some?
         && AsStr(d.sriovCniNameservers).Some?
         && FlagAgrees(d.vlanQoSConfigured, d.sriovCniVlanQoS)
         && FlagAgrees(d.spoofChkConfigured, d.sriovCniSpoofChk)
         && FlagAgrees(d.trustConfigured, d.sriovCniTrust)
         && FlagAgrees(d.stateConfigured, d.sriovCniState)
         && FlagAgrees(d.minTxRateConfigured, d.sriovCniMinTxRate)
         && FlagAgrees(d.maxTxRateConfigured, d.sriovCniMaxTxRate))
    then None
    else
      var spoofChk := AsStr(d.sriovCniSpoofChk);
      var trust := AsStr(d.sriovCniTrust);
      var state := AsStr(d.sriovCniState);
      Some(CniConfig(
        AsStr(d.sriovNetworkName).value, AsStr(d.sriovNetworkNamespace).value,
        AsStr(d.sriovCniResourceName).value, AsInt(d.sriovCniVlan).value,
        AsInt(d.sriovCniVlanQoS),
        if spoofChk.Some? then ToggleOf(spoofChk.value) else None,
        if trust.Some? then ToggleOf(trust.value) else None,
        if state.Some? then LinkStateOf(state.value) else None,
        AsInt(d.sriovCniMinTxRate), AsInt(d.sriovCniMaxTxRate),
        AsStr(d.sriovCniAddress).value, AsStr(d.sriovCniGateway).value,
        AsStr(d.sriovCniNameservers).value))
  }

  /** Which variables the rendering defines and what they hold: the fixed
      ones always, copied from the entry; each optional one exactly when its
      flag is true, which is exactly when the entry's value is recognised. */
  lemma RenderedVariables(si: SriovIpAddress, resourceName: string)
    ensures var d := RenderDataOf(si, resourceName);
      d.cniType == Some(Str("sriov"))
      && d.sriovNetworkName == Some(Str(si.name)) && d.sriovNetworkNamespace == Some(Str(si.namespace))
      && d.sriovCniResourceName == Some(Str(resourceName)) && d.sriovCniVlan == Some(Int(si.vlan))
      && d.sriovCniAddress == Some(Str(si.address)) && d.sriovCniGateway == Some(Str(si.gateway))
      && d.sriovCniNameservers == Some(Str(si.nameservers))
      && d.vlanQoSConfigured == Some(Bool(VlanQoSInRange(si.vlanQoS)))
      && (d.sriovCniVlanQoS.Some? <==> VlanQoSInRange(si.vlanQoS))
      && (d.sriovCniVlanQoS.Some? ==> d.sriovCniVlanQoS.value == Int(si.vlanQoS))
      && (si.vlanQoS == 0 ==> d.sriovCniVlanQoS == Some(Int(0)))
      && d.spoofChkConfigured == Some(Bool(si.spoofChk in {"on", "off"}))
      && (d.sriovCniSpoofChk.Some? <==> si.spoofChk in {"on", "off"})
      && (d.sriovCniSpoofChk.Some? ==> d.sriovCniSpoofChk.value == Str(si.spoofChk))
      && d.trustConfigured == Some(Bool(si.trust in {"on", "off"}))
      && (d.sriovCniTrust.Some? <==> si.trust in {"on", "off"})
      && (d.sriovCniTrust.Some? ==> d.sriovCniTrust.value == Str(si.trust))
      && d.stateConfigured == Some(Bool(si.linkState in {"enable", "disable", "auto"}))
      && (d.sriovCniState.Some? <==> si.linkState in {"enable", "disable", "auto"})
      && (d.sriovCniState.Some? ==> d.sriovCniState.value == Str(si.linkState))
      && d.minTxRateConfigured == Some(Bool(RateSet(si.minTxRate)))
      && (d.sriovCniMinTxRate.Some? <==> RateSet(si.minTxRate))
      && (d.sriovCniMinTxRate.Some? ==> d.sriovCniMinTxRate.value == Int(si.minTxRate.value))
      && d.maxTxRateConfigured == Some(Bool(RateSet(si.maxTxRate)))
      && (d.sriovCniMaxTxRate.Some? <==> RateSet(si.maxTxRate))
      && (d.sriovCniMaxTxRate.Some? ==> d.sriovCniMaxTxRate.value == Int(si.maxTxRate.value))
  {
    var d := RenderDataOf(si, resourceName);
    var cfg := Effective(si, resourceName);
    assert d.sriovCniSpoofChk == ToggleValue(ToggleOf(si.spoofChk));
    assert d.sriovCniTrust == ToggleValue(ToggleOf(si.trust));
    assert d.sriovCniState == LinkStateValue(LinkStateOf(si.linkState));
  }

  /** Decoding undoes encoding for every configuration whose numeric
      settings are in range. */
  lemma DecodeEncode(cfg: CniConfig)
    requires ValidConfig(cfg)
    ensures Decode(Encode(cfg)) == Some(cfg)
  {
    var d := Encode(cfg);
    assert AsInt(d.sriovCniVlanQoS) == cfg.vlanQoS;
    assert AsInt(d.sriovCniMinTxRate) == cfg.minTxRate;
    assert AsInt(d.sriovCniMaxTxRate) == cfg.maxTxRate;
    assert (if AsStr(d.sriovCniSpoofChk).Some? then ToggleOf(AsStr(d.sriovCniSpoofChk).value) else None) == cfg.spoofChk;
    assert (if AsStr(d.sriovCniTrust).Some? then ToggleOf(AsStr(d.sriovCniTrust).value) else None) == cfg.trust;
    assert (if AsStr(d.sriovCniState).Some? then LinkStateOf(AsStr(d.sriovCniState).value) else None) == cfg.linkState;
  }

  /** The rendered data determines the entry's effective configuration, and
      nothing else about it: two entries render the same data exactly when
      they ask for the same configuration. */
  lemma RenderDataDeterminedByEffective(si1: SriovIpAddress, rn1: string, si2: SriovIpAddress, rn2: string)
    ensures RenderDataOf(si1, rn1) == RenderDataOf(si2, rn2) <==> Effective(si1, rn1) == Effective(si2, rn2)
  {
    DecodeEncode(Effective(si1, rn1));
    DecodeEncode(Effective(si2, rn2));
  }
}

=== FILE: strings.dfy ===
/** The string helpers of Go's `strings` package that the webhook relies on. */
module Strings {

  /** Some character of `s` belongs to `chars`. */
  predicate ContainsAny(s: string, chars: set<char>)
  {
    exists i :: 0 <= i < |s| && s[i] in chars
  }

  /** `strings.IndexAny`: the index of the first character of `s` that is in
      `chars`, or -1 when there is none. Characters stand for Go runes; every
      character the webhook searches for is ASCII, so rune and byte indices
      agree on the question asked (whether the result is non-negative). */
  function IndexAny(s: string, chars: set<char>): (r: int)
    ensures -1 <= r < |s|
    ensures r == -1 <==> !ContainsAny(s, chars)
    ensures r >= 0 ==> s[r] in chars && forall j :: 0 <= j < r ==> s[j] !in chars
  {
    if |s| == 0 then -1
    else if s[0] in chars then 0
    else
      var k := IndexAny(s[1..], chars);
      if k < 0 then -1 else k + 1
  }
}

=== FILE: vm_ip.dfy ===
/** The key a VirtualMachine is known by in the IP manager's bookkeeping. */
module VmIp {
  import opened Basics
  import opened Strings

  /** The part of a `kubevirt.VirtualMachine` the key is made from. */
  datatype VirtualMachine = VirtualMachine(name: string, namespace: string)

  const VmPrefix: string := "vm/"

  /** `VmNamespaced`: `vm/<namespace>/<name>`. */
  function VmNamespaced(machine: VirtualMachine): (r: string)
    ensures |r| == 4 + |machine.namespace| + |machine.name|
    ensures r[..3] == VmPrefix
    ensures r[3..3 + |machine.namespace|] == machine.namespace
    ensures r[3 + |machine.namespace|] == '/'
    ensures r[|r| - |machine.name|..] == machine.name
  {
    VmPrefix + machine.namespace + "/" + machine.name
  }

  /** The inverse of `VmNamespaced` for namespaces without '/': the
      namespace runs up to the first '/' after the prefix and the name is
      everything after it. */
  function ParseVmNamespaced(s: string): (r: Option<VirtualMachine>)
    ensures r.Some? ==> VmNamespaced(r.value) == s && '/' !in r.value.namespace
  {
    if |s| < 3 || s[..3] != VmPrefix then None
    else
      var rest := s[3..];
      var slash := IndexAny(rest, {'/'});
      if slash < 0 then None
      else
        assert rest == rest[..slash] + "/" + rest[slash + 1..];
        assert s == VmPrefix + rest;
        Some(VirtualMachine(rest[slash + 1..], rest[..slash]))
  }

  /** Parsing a key gives back the machine it was made from, as long as the
      namespace holds no '/' (Kubernetes namespaces never do). */
  lemma ParseVmNamespacedRoundTrip(machine: VirtualMachine)
    requires '/' !in machine.namespace
    ensures ParseVmNamespaced(VmNamespaced(machine)) == Some(machine)
  {
    var s := VmNamespaced(machine);
    var rest := s[3..];
    assert rest == machine.namespace + "/" + machine.name;
    var n := |machine.namespace|;
    assert rest[n] == '/';
    assert forall j :: 0 <= j < n ==> rest[j] == machine.namespace[j];
    assert IndexAny(rest, {'/'}) == n by {
      assert ContainsAny(rest, {'/'});
    }
    assert rest[..n] == machine.namespace;
    assert rest[n + 1..] == machine.name;
  }

  /** Distinct machines get distinct keys when namespaces hold no '/'. */
  lemma VmNamespacedInjective(a: VirtualMachine, b: VirtualMachine)
    requires '/' !in a.namespace && '/' !in b.namespace
    requires VmNamespaced(a) == VmNamespaced(b)
    ensures a == b
  {
    ParseVmNamespacedRoundTrip(a);
    ParseVmNamespacedRoundTrip(b);
  }

  /** Without that restriction two machines can share a key. */
  lemma VmNamespacedCollision()
    ensures VmNamespaced(VirtualMachine("c", "a/b")) == VmNamespaced(VirtualMachine("b/c", "a"))
  {
    assert VmNamespaced(VirtualMachine("c", "a/b")) == "vm/a/b/c";
    assert VmNamespaced(VirtualMachine("b/c", "a")) == "vm/a/b/c";
  }
}
